=== FILE: README.md ===
# slicks: adaptive chunked querying, modelled in Dafny

slicks reads telemetry from an InfluxDB 3 store whose server imposes limits it
does not disclose. This project models the pure logic around the store client
and proves properties of it:

- **the error classifier**: a failure is permanent when its lower-cased message
  contains one of nine fixed patterns (`Classifier`, on top of `Strings`);
- **the adaptive range splitter** `adaptive_query` (`Splitter`). It has a span
  floor and a depth floor. A primary success passes through, a permanent failure
  aborts, and any other failure splits the range at the midpoint;
- **the chunk executor** `run_chunks_parallel` (`Executor`). The thread pool is
  replaced by an arbitrary completion order of the chunks. Client creation, the
  progress callback and client closing are recorded as a trace of effects;
- **the scanner**:
  - `query_exists_per_bin`, `process_range` and the outer 31-day loop (`Scanner`);
  - `_compress_bins` (`Windows`);
  - grouping by day and the `ScanResult` accessors (`ScanResults`);
- **sensor discovery** `discover_sensors`: the chunk list, the `None` filter,
  the splitter settings, the final `sorted(set(...))` and the error wrapping
  (`Discovery`);
- **the configuration record** and `connect_influxdb3` (`Settings`);
- **table quoting** for both quoting functions (`Quoting`).

Instants are integer microseconds, the resolution of Python's `datetime`
(`TimeRanges`). Python's `timedelta / 2` is modelled exactly: it halves the
microsecond count and rounds half to even. Every store query is a function
parameter (an oracle). It returns the rows, or `Failure(message)` for an
exception.

`_compress_bins` is modelled as the code does it. A bucket extends the open
window only when its start equals the window's end exactly. Any other bucket
closes the window and opens a new one at that bucket, even when its start
repeats one already covered. So with repeated starts the windows can overlap:
for buckets at 0, 10 and 10 with step 10, the windows are [0, 20) with two bins
and then [10, 20) with one bin.

## Model

| member | source | states |
|---|---|---|
| Classifier.IsPermanentError | src/slicks/query_utils.py:25-52 | a message is permanent exactly when one of the nine patterns occurs in its lower-cased form |
| Classifier.CaseInsensitive | src/slicks/query_utils.py:51 | a message and its lower-cased form classify the same |
| Classifier.EmptyMessageRecoverable | src/slicks/query_utils.py:49-52 | the empty message is recoverable |
| Classifier.UnauthorizedIsPermanent | tests/test_query_utils.py:31-32 | "Unauthorized: invalid token", in any letter case, is permanent |
| Classifier.TableNotFoundIsPermanent | tests/test_query_utils.py:34-35 | "table not found: iox.WFR25" is permanent |
| Classifier.WithoutNRecoverable | src/slicks/query_utils.py:25-52 | every pattern contains the letter n, so a message without it is recoverable |
| Classifier.TransientIsRecoverable | tests/test_query_utils.py:43-47 | "query timeout exceeded" and "resource limit exceeded", in any letter case, are recoverable |
| Strings.Contains | src/slicks/query_utils.py:52 | `needle in hay` holds exactly when the needle occurs at some position of the hay |
| Strings.LowerIdempotent | src/slicks/query_utils.py:51 | lower-casing twice is lower-casing once |
| Strings.SortedSet | src/slicks/discovery.py:120 | `sorted(set(names))` is strictly ascending and has exactly the elements of `names` |
| Strings.AscendingListingUnique | src/slicks/discovery.py:120 | two strictly ascending lists with the same elements are equal, so the sorted listing of a set is unique |
| Quoting.QuoteSchemaTable | src/slicks/query_utils.py:38-42 | the result is the schema and the table, each in double quotes, joined by a dot |
| Quoting.QuoteTable | src/slicks/scanner.py:24-29 | a dot-free name is quoted whole; otherwise it is split at its first dot into a dot-free schema and the rest |
| Quoting.QuotingAgrees | src/slicks/scanner.py:24-29 | for a dot-free schema, quoting `schema.table` agrees with `quote_table(schema, table)` |
| TimeRanges.MidpointInside | src/slicks/query_utils.py:96-97 | the midpoint lies strictly inside [t0, t1) exactly when the range is at least two microseconds wide |
| TimeRanges.BuildChunks | src/slicks/discovery.py:86-93 | empty exactly when start >= end or the width is not positive; otherwise the chunks tile [start, end), all of positive width at most the chunk size, all but the last exactly the chunk size |
| TimeRanges.BuildChunksCount | src/slicks/discovery.py:86-93 | there are ceil((end - start) / width) chunks |
| Splitter.Adaptive | src/slicks/query_utils.py:59-110 | above both floors the first primary call is over the whole range; every primary call lies inside the range, no deeper than max_depth and above the span floor; leaves lie inside the range, at most one level below max_depth, answered as their source says; on success no primary call raised a permanent error, the leaves tile the range and the rows are theirs left to right; a failure is a permanent one that some primary call raised |
| Splitter.SpanFloorSkipsPrimary | src/slicks/query_utils.py:80-83 | at or below a non-zero span floor the primary is not called and the answer is the fallback's rows or nothing |
| Splitter.DepthFloorSkipsPrimary | src/slicks/query_utils.py:85-88 | deeper than max_depth the primary is not called and the answer is the fallback's rows or nothing |
| Splitter.PrimarySuccessPassesThrough | src/slicks/query_utils.py:90-91 | above both floors a primary success is the answer, after exactly one call |
| Splitter.PermanentFailureAborts | src/slicks/query_utils.py:92-94 | a permanent failure is raised with the same message, after one call, with no split and no fallback |
| Splitter.DegenerateSplitFallsBack | src/slicks/query_utils.py:96-100 | a recoverable failure on a range narrower than two microseconds, empty and inverted ranges included, answers with the fallback's rows or nothing |
| Splitter.RecoverableFailureSplits | src/slicks/query_utils.py:96-110 | after a recoverable failure on a splittable range, a left-half failure is raised and the right half is never queried; otherwise a right-half failure is raised; otherwise the answer is the left half's rows followed by the right half's |
| Splitter.SplitOnce | tests/test_query_utils.py:67-82 | one recoverable failure and two successful halves make three primary calls and the halves' rows in order |
| Splitter.NoPermanentNoFailure | src/slicks/query_utils.py:90-110 | if the primary never fails permanently, the call never raises |
| Splitter.AlwaysFailingUsesFallback | tests/test_query_utils.py:127-148 | a primary that always fails recoverably, with a one-marker fallback, gives a non-empty answer made only of markers |
| Executor.RunChunksParallel | src/slicks/query_utils.py:117-172 | no chunks: no effects and no rows; success exactly when every chunk succeeds; then the rows are in chunk-index order for every completion order; every client is created, then the completed chunks are reported, then every client is closed; a failure is the first one in completion order, re-raised unchanged, and only the chunks completed before it are reported |
| Executor.Collect | src/slicks/query_utils.py:150-161 | the results gathered by chunk index until the first failure in completion order |
| Executor.CreateClients | src/slicks/query_utils.py:144-148 | the trace of the submission loop: one client is created per chunk, in index order, so the k-th effect creates client k |
| Executor.CloseClients | src/slicks/query_utils.py:162-167 | the trace of the finally block: every client is closed once, in creation order, so the k-th effect closes client k |
| Executor.Reassemble | src/slicks/query_utils.py:169-172 | concatenating the stored results by ascending index gives the chunks' rows in index order |
| Executor.ClientsClosedOnce | src/slicks/query_utils.py:144-167 | when the factory never raises, on success or failure each client 0..n-1 is created exactly once and closed exactly once, no other client is touched, and no chunk is reported twice |
| Executor.FactoryRaisesAsWritten | src/slicks/query_utils.py:144-150 | when the factory raises for chunk k, clients 0..k-1 have been created in order and nothing else has happened |
| Executor.FactoryRaisesGuarded | src/slicks/query_utils.py:144-167 | with the submission loop inside the try, clients 0..k-1 are created in order and then closed in order |
| Executor.FactoryFailureLeaks | src/slicks/query_utils.py:144-167 | when the factory raises for chunk k, each client made before it is created once and none is ever closed |
| Executor.FactoryFailureClosesCreated | src/slicks/query_utils.py:162-167 | with the guard, each client made before the factory raised is created once and closed once, and no other client is touched |
| Executor.EveryChunkReported | src/slicks/query_utils.py:151-157 | on success with a callback every chunk index is reported exactly once |
| Executor.CreatedBeforeClosed | src/slicks/query_utils.py:144-167 | every client is created before any client is closed |
| Windows.SortByStart | src/slicks/scanner.py:533 | the result is sorted by start and is a permutation of the input |
| Windows.InsertBucketSorted | src/slicks/scanner.py:533 | inserting a bucket into a sorted list keeps it sorted and adds exactly that bucket |
| Windows.SortByStartStable | src/slicks/scanner.py:533 | buckets with equal starts keep their input order |
| Windows.SortSorted | src/slicks/scanner.py:533 | sorting sorted input changes nothing |
| Windows.Walk | src/slicks/scanner.py:538-557 | the walk emits nothing exactly when no window is open and no pair is left, and its first window starts where the open window or the first pair starts |
| Windows.CompressBins | src/slicks/scanner.py:528-558 | no windows exactly when there are no pairs |
| Windows.CompressWellFormed | src/slicks/scanner.py:538-557 | every window holds at least one bucket and end = start + bins * step |
| Windows.CompressTotals | src/slicks/scanner.py:538-557 | the windows' bins add up to the number of pairs and their rows to the pairs' counts |
| Windows.CompressOrdered | src/slicks/scanner.py:533-557 | window starts never decrease |
| Windows.CompressSeparated | src/slicks/scanner.py:545-554 | with distinct starts on a common step grid, each window ends strictly before the next starts |
| Windows.DuplicateStartNotMerged | src/slicks/scanner.py:545-554 | for any non-zero step, two pairs with the same start give two windows over the same span, not one merged window; with step 0 they merge, because the start equals the open window's end |
| Windows.MinuteExample | src/slicks/scanner.py:528-558 | buckets at minutes t, t+1, t+2 and t+10 give windows [t, t+3) with 3 bins and 3 rows and [t+10, t+11) with 1 and 1 |
| Scanner.ScanTableRef | src/slicks/scanner.py:369-372 | without a table the reference is `"iox"."<db>"`; a given table is quoted by `_quote_table` |
| Scanner.ExistsPerBin | src/slicks/scanner.py:457-476 | every reported bucket has count 1 and a start in [t0, t1), and the starts strictly increase |
| Scanner.ExistsPerBinProbes | src/slicks/scanner.py:457-476 | the probed ranges are exactly the step-wide chunks of [t0, t1), and a bucket is reported for each probe that found a row |
| Scanner.ExistsPerBinExactly | src/slicks/scanner.py:469-474 | a bucket is reported exactly when a probe starting at its start found a row; a failed probe reports nothing and raises nothing |
| Scanner.ProcessRange | src/slicks/scanner.py:478-497 | grouped queries lie inside the range and are wider than four steps; a grouped piece's query succeeded; a probed piece is at most four steps wide or has a degenerate midpoint; the pieces tile the range and the pairs are theirs left to right; nothing is raised |
| Scanner.NarrowRangeProbes | src/slicks/scanner.py:479-483 | a range of at most four steps is probed and the grouped query is not issued |
| Scanner.GroupedSuccessPassesThrough | src/slicks/scanner.py:484-487 | a wider range whose grouped query succeeds yields exactly its rows after one grouped query |
| Scanner.AnyFailureSplits | src/slicks/scanner.py:488-497 | any grouped failure splits at a midpoint strictly inside the range, left pairs first |
| Scanner.ProbedPiecesNarrow | src/slicks/scanner.py:489-493 | with a positive step the degenerate-midpoint branch is never taken, so every probed piece is at most four steps wide |
| Scanner.FetchChunksSound | src/slicks/scanner.py:515-523 | processing tiled chunks in order keeps every promise of a single range over their union |
| Scanner.FetchChunks | src/slicks/scanner.py:514-521 | every piece and every grouped query of the chunk-by-chunk scan lies inside one of the chunks |
| Scanner.FetchBins | src/slicks/scanner.py:504-523 | an empty range yields nothing; otherwise the pieces tile [start, end), the pairs are theirs in chunk order, and no piece or grouped query crosses the boundary of a 31-day chunk |
| ScanResults.Len | src/slicks/scanner.py:278-280 | the length is the number of distinct day keys |
| ScanResults.Days | src/slicks/scanner.py:308-311 | the days are strictly ascending, exactly the keys, as many as the length |
| ScanResults.Iter | src/slicks/scanner.py:273-276 | iteration yields stored entries in strictly ascending day order, one per day |
| ScanResults.IterPermutation | src/slicks/scanner.py:273-276 | iteration lists every stored entry exactly once |
| ScanResults.TotalRowsInDayOrder | src/slicks/scanner.py:313-316 | the total over the entries in day order equals `total_rows` |
| ScanResults.TotalRows | src/slicks/scanner.py:313-316 | the day-by-day total equals the sum of the row counts of all windows of all days |
| ScanResults.AddWindow | src/slicks/scanner.py:409-416 | appending to a day keeps the keys distinct, adds the day to them and adds the window's rows to the total |
| ScanResults.AddWindowAppends | src/slicks/scanner.py:409-416 | the window becomes the last one of its day, a new day goes after the existing keys, and every other day's entry is unchanged |
| ScanResults.GroupByDay | src/slicks/scanner.py:401-416 | the grouped dict has distinct keys |
| ScanResults.GroupByDayWindows | src/slicks/scanner.py:401-418 | each day holds exactly the windows whose start falls on it, in compression order, with counts zeroed unless requested |
| ScanResults.GroupByDayOwnDay | src/slicks/scanner.py:401-418 | every stored window sits under the day key of its own start |
| ScanResults.GroupByDayKeys | src/slicks/scanner.py:401-416 | the days are exactly the day keys of the windows' starts |
| ScanResults.GroupByDayRows | src/slicks/scanner.py:403-416 | the grouped rows add up to the windows' rows, or to zero without counts |
| ScanResults.BinStep | src/slicks/scanner.py:375-376 | the step is one day exactly for "day" and one hour for every other bin size, misspelt ones included |
| ScanResults.ScanDataAvailability | src/slicks/scanner.py:394-418 | the result never holds a day twice |
| ScanResults.ScanTotalRows | src/slicks/scanner.py:383-418 | `total_rows` is the sum of the counts of all fetched pairs, or zero without counts |
| ScanResults.ScanDays | src/slicks/scanner.py:398-418 | `days` lists, in strictly ascending order, exactly the day keys of the compressed windows |
| Discovery.DropNone | src/slicks/discovery.py:70 | a name is kept exactly when it occurs as a non-null value |
| Discovery.QueryDistinct | src/slicks/discovery.py:66-70 | an exception passes through unchanged; otherwise the names are exactly the column's non-null values |
| Discovery.DistinctTableRef | src/slicks/discovery.py:56-58 | a configured schema and table are used as they are; an empty schema becomes "iox" and an empty table becomes the database, each independently of the other |
| Discovery.ChunkQuery | src/slicks/discovery.py:72-83 | each chunk uses no fallback, a 10-second span floor and a maximum depth of 5 |
| Discovery.ProcessChunk | src/slicks/discovery.py:72-83 | a chunk fails only with a permanent error, and never fails when the store raises no permanent error |
| Discovery.SensorChunks | src/slicks/discovery.py:85-93 | the chunks tile [start, end), each at most chunk_size_days days wide; there are none when the range is empty or the size is not positive |
| Discovery.DiscoverSensors | src/slicks/discovery.py:85-121 | success exactly when every chunk succeeds; the names are strictly ascending and exactly those the chunks returned; a failure is some chunk's permanent message prefixed "Sensor discovery aborted: "; a store with no rows gives no names |
| Discovery.FailureFromStore | src/slicks/discovery.py:107-116 | a failed chunk carries the exact message the store raised for the name query over some sub-range of the chunk |
| Discovery.ChunkNamesFromQueries | src/slicks/discovery.py:72-83 | every name a chunk returns was a non-null value of a successful query of one of its pieces; unresolved pieces give nothing |
| Discovery.EmptyStoreNoNames | tests/test_discovery.py:59-78 | when every query returns an empty table, every chunk succeeds with no names |
| Discovery.TenDaysInWeeks | tests/test_discovery.py:133-153 | ten days in seven-day chunks give two chunks, the second clipped to the end |
| Settings.Override | src/slicks/config.py:51-53 | a truthy argument replaces the field; otherwise the field is kept |
| Settings.InitialConfig | src/slicks/config.py:10-18 | the database defaults to WFR25; the table is the environment value when set and non-empty, else the database |
| Settings.DefaultConfig | src/slicks/config.py:10-18 | with no environment the settings are the built-in defaults and the table equals the database |
| Settings.Connect | src/slicks/config.py:50-64 | url, token, org, db and schema are each replaced exactly when their argument is truthy; a truthy table decides the table, and otherwise the table becomes the new db only when it was empty |
| Settings.ConnectNothing | src/slicks/config.py:50-64 | absent or empty arguments leave all six fields unchanged |
| Settings.ConnectTableWins | src/slicks/config.py:64 | a truthy table argument always decides the table |
| Settings.ConnectTableFromDb | src/slicks/config.py:56-61 | without a table argument the table becomes the new db only when it was empty, else it is kept |
| Settings.ConnectIdempotent | src/slicks/config.py:50-64 | repeating a call changes nothing further |
| Settings.ConnectKeepsStaleTable | src/slicks/config.py:56-61 | a table equal to the old database does not follow a database change |
| Settings.ConnectFollowingDb | src/slicks/config.py:55-61 | the rule the comment describes: a table equal to the database keeps equalling it after the call, another non-empty table is kept, and the other fields are updated as in `connect_influxdb3` |
| Settings.FollowingDbTracksDb | src/slicks/config.py:55-61 | under that rule a table derived from the database follows the new database, and another table is kept |
| Settings.ConnectRulesAgree | src/slicks/config.py:56-61 | both rules agree unless the table equals the old database and a different database is given; in particular they agree on every call without a database |

## Left out

- The InfluxDB client, SQL text and Arrow column access are network I/O. Each query is an oracle parameter that returns rows or an exception message.
- `ThreadPoolExecutor`, `max_workers`, locks and `Future.cancel` are real concurrency. The pool is a sequential walk over an arbitrary completion order. Chunks after the first failure count as cancelled: they are not reported and contribute nothing. In the source only a `PermanentQueryError` cancels the pending futures; after any other exception they still run, against clients the `finally` block has already closed, until the pool shuts down. Their results are discarded either way, so the outcome is the same.
- `Executor.RunChunksParallel`: the client factory is assumed never to raise, and `close` is assumed never to raise. The source swallows `close` exceptions, so the trace records every close as done. The factory is called before the `try`, so if it raises for chunk k > 0, clients 0..k-1 are never closed. That case is the leak under "## Findings"; `Executor.ClientsClosedOnce` holds only for runs whose factory never raises.
- `Executor.RunChunksParallel`: the progress callback is assumed never to raise. In the source an exception from `on_chunk_done` is not a `PermanentQueryError`, so nothing is cancelled. It ends the run with that exception after every client is closed. `notify` only says whether a callback was given, so this case is not modelled.
- `Splitter.Adaptive`: the fallback is a total function. An exception raised by a fallback is not modelled.
- `Strings.Lower` lower-cases ASCII letters only. Python's `str.lower` also maps other letters, for example the Kelvin sign to `k`. A message spelled with such letters may classify differently.
- tqdm progress bars, `show_progress` and the `total_chunks` estimate only affect the display.
- `chunk_days` in `process_range` is halved along the recursion and decides nothing.
- Time zone conversion and `strftime` day keys are library calendar logic. The day key is a function parameter `dayOf`, and a window's local start and end times are not stored.
- Converting naive or non-UTC datetimes to UTC is left out, because instants are UTC microseconds throughout.
- Instants and durations are unbounded integers. Python's `datetime` and `timedelta` have a bounded range and raise `OverflowError` beyond it. For example, `cur + timedelta(days=chunk_size_days)` overflows for a range ending near the year 9999 or for a chunk size of 10**9 days. That error is not modelled: `TimeRanges.BuildChunks`, `Discovery.SensorChunks` and `Scanner.FetchBins` return chunks where the source would raise.
- `__repr__`, `_repr_html_`, `calendar_view`, `to_dict` and `to_dataframe` are presentation and pandas work. They are not modelled.
- `load_dotenv`, the `SIGNALS` list and the ignored `client` argument of `discover_sensors` are left out. The environment is a map parameter.
- The generators of the scanner are modelled as the lists they yield in full. A probe exception is swallowed and a grouped failure is always answered, so no partial output can escape.

## Findings

| source | as written | input that shows it | evidently intended | confidence | as-written member | corrected member |
|---|---|---|---|---|---|---|
| src/slicks/config.py:56-61 | with a db and no table, the table follows only if it is empty or equal to the NEW db | settings with db "WFR25" and table "WFR25", then `connect_influxdb3(db="WFR26")`: the table stays "WFR25" | the comment on line 59 says the table should follow when it matches the OLD db name, so that a table derived from the database keeps following it | medium, not executed | Settings.ConnectKeepsStaleTable | Settings.FollowingDbTracksDb |
| src/slicks/query_utils.py:144-167 | the client factory is called before the `try`, so an exception from it skips the `finally` that closes the clients | two chunks, and the factory raises while making the client for chunk 1: client 0 was made and is never closed | every client made is closed, as the `finally` block does for failures of the query | medium, not executed | Executor.FactoryFailureLeaks | Executor.FactoryFailureClosesCreated |

=== FILE: classifier.dfy ===
/** Sorting a failure into permanent (stop) or recoverable (split and retry). */
module Classifier {
  import opened Strings

  /** The fixed signatures of failures that narrowing the time range cannot cure. */
  const PermanentPatterns: seq<string> := [
    "table not found",
    "not found",
    "unauthorized",
    "unauthenticated",
    "permission denied",
    "invalid token",
    "database not found",
    "bucket not found",
    "syntax error"
  ]

  /** The error raised for a permanent failure; it keeps the original message. */
  datatype PermanentQueryError = PermanentQueryError(message: string)

  /** Some pattern among `patterns` occurs somewhere in `hay`. */
  ghost predicate SomeOccurs(hay: string, patterns: seq<string>)
  {
    exists k, i :: 0 <= k < |patterns| && OccursAt(hay, patterns[k], i)
  }

  /** Python's `any(p in hay for p in patterns)`. */
  function AnyOccurs(hay: string, patterns: seq<string>): (r: bool)
    ensures r <==> SomeOccurs(hay, patterns)
  {
    if |patterns| == 0 then false
    else if Contains(hay, patterns[0]) then true
    else
      assert forall k :: 1 <= k < |patterns| ==> patterns[k] == patterns[1..][k - 1];
      AnyOccurs(hay, patterns[1..])
  }

  /** A failure is permanent exactly when its lower-cased message contains one
      of the permanent patterns. */
  function IsPermanentError(message: string): (permanent: bool)
    ensures permanent <==> SomeOccurs(Lower(message), PermanentPatterns)
  {
    AnyOccurs(Lower(message), PermanentPatterns)
  }

  /** Case does not matter: a message and its lower-cased form classify alike. */
  lemma CaseInsensitive(message: string)
    ensures IsPermanentError(Lower(message)) == IsPermanentError(message)
  {
    LowerIdempotent(message);
  }

  /** An empty message matches no pattern, so its failure is recoverable. */
  lemma EmptyMessageRecoverable()
    ensures !IsPermanentError("")
  {
    assert Lower("") == "";
  }

  /** A needle with a character that `hay` lacks cannot occur in `hay`. */
  lemma MissingCharNoOccurrence(hay: string, needle: string, c: char)
    requires c in needle && c !in hay
    ensures forall i :: !OccursAt(hay, needle, i)
  {
  }

  /** Every permanent pattern contains the letter 'n'. */
  lemma EveryPatternHasN(k: nat)
    requires k < |PermanentPatterns|
    ensures 'n' in PermanentPatterns[k]
  {
  }

  /** A message without the letter 'n' matches no permanent pattern. */
  lemma WithoutNNoPattern(hay: string)
    requires 'n' !in hay
    ensures !SomeOccurs(hay, PermanentPatterns)
  {
    forall k | 0 <= k < |PermanentPatterns| ensures forall i :: !OccursAt(hay, PermanentPatterns[k], i) {
      EveryPatternHasN(k);
      MissingCharNoOccurrence(hay, PermanentPatterns[k], 'n');
    }
  }

  /** Classifying a message whose lower-cased form is already known. */
  lemma ClassifyLowered(message: string, lowered: string)
    requires Lower(message) == lowered
    ensures IsPermanentError(message) <==> SomeOccurs(lowered, PermanentPatterns)
  {
  }

  /** Any spelling of "Unauthorized: invalid token", in any letter case, is permanent. */
  lemma UnauthorizedIsPermanent(message: string)
    requires Lower(message) == "unauthorized: invalid token"
    ensures IsPermanentError(message)
  {
    assert OccursAt("unauthorized: invalid token", PermanentPatterns[2], 0);
    ClassifyLowered(message, "unauthorized: invalid token");
  }

  lemma TableNotFoundIsPermanent(message: string)
    requires Lower(message) == "table not found: iox.wfr25"
    ensures IsPermanentError(message)
  {
    assert OccursAt("table not found: iox.wfr25", PermanentPatterns[0], 0);
    ClassifyLowered(message, "table not found: iox.wfr25");
  }

  /** A message with no letter 'n' in any case is recoverable. */
  lemma WithoutNRecoverable(message: string)
    requires 'n' !in Lower(message)
    ensures !IsPermanentError(message)
  {
    WithoutNNoPattern(Lower(message));
  }

  /** Timeouts and exhausted resource limits, in any letter case, are recoverable. */
  lemma TransientIsRecoverable(message: string)
    requires Lower(message) == "query timeout exceeded" || Lower(message) == "resource limit exceeded"
    ensures !IsPermanentError(message)
  {
    WithoutNRecoverable(message);
  }
}

=== FILE: config.dfy ===
/** The process-wide connection settings and `connect_influxdb3`, as a pure
    update of a six-field record. */
module Settings {
  import opened Wrappers

  /** `INFLUX_URL`, `INFLUX_TOKEN`, `INFLUX_ORG`, `INFLUX_DB`,
      `INFLUX_SCHEMA`, `INFLUX_TABLE`. */
  datatype Config = Config(url: string, token: string, org: string, db: string, schema: string, table: string)

  /** An argument counts only when it is truthy: present and non-empty. */
  predicate Given(a: Option<string>)
  {
    a.Some? && |a.value| > 0
  }

  /** `if x: FIELD = x`. */
  function Override(a: Option<string>, current: string): (r: string)
    ensures Given(a) ==> r == a.value
    ensures !Given(a) ==> r == current
    ensures |current| > 0 ==> |r| > 0
  {
    if Given(a) then a.value else current
  }

  /** `os.getenv(key, default)`: a variable that is set wins, even when empty. */
  function GetEnv(env: map<string, string>, key: string, default: string): string
  {
    if key in env then env[key] else default
  }

  /** The settings at import time. `INFLUX_TABLE` is the variable when it is
      set and non-empty, and `INFLUX_DB` otherwise. */
  function InitialConfig(env: map<string, string>): (c: Config)
    ensures "INFLUX_DB" !in env ==> c.db == "WFR25"
    ensures "INFLUX_TABLE" in env && |env["INFLUX_TABLE"]| > 0 ==> c.table == env["INFLUX_TABLE"]
    ensures !("INFLUX_TABLE" in env && |env["INFLUX_TABLE"]| > 0) ==> c.table == c.db
  {
    var db := GetEnv(env, "INFLUX_DB", "WFR25");
    var table := GetEnv(env, "INFLUX_TABLE", "");
    Config(
      GetEnv(env, "INFLUX_URL", "http://localhost:8086"),
      GetEnv(env, "INFLUX_TOKEN", "my-token"),
      GetEnv(env, "INFLUX_ORG", "Docs"),
      db,
      GetEnv(env, "INFLUX_SCHEMA", "iox"),
      if |table| > 0 then table else db)
  }

  /** With no variables set, the built-in defaults apply and the table is the database. */
  lemma DefaultConfig()
    ensures InitialConfig(map[]) == Config("http://localhost:8086", "my-token", "Docs", "WFR25", "iox", "WFR25")
  {
  }

  /** `connect_influxdb3(url, token, org, db, schema, table)` as written. With
      a database and no table, the table follows the new database only if it
      was empty or already equal to that new database. */
  function Connect(c: Config, url: Option<string>, token: Option<string>, org: Option<string>,
                   db: Option<string>, schema: Option<string>, table: Option<string>): (r: Config)
    ensures r.url == Override(url, c.url) && r.token == Override(token, c.token) && r.org == Override(org, c.org)
    ensures r.db == Override(db, c.db) && r.schema == Override(schema, c.schema)
    ensures Given(table) ==> r.table == table.value
    ensures !Given(table) ==> r.table == if Given(db) && c.table == "" then db.value else c.table
  {
    var tableAfterDb :=
      if Given(db) && !Given(table) && (c.table == "" || c.table == db.value) then db.value else c.table;
    Config(Override(url, c.url), Override(token, c.token), Override(org, c.org),
           Override(db, c.db), Override(schema, c.schema), Override(table, tableAfterDb))
  }

  /** Absent or empty arguments change nothing. */
  lemma ConnectNothing(c: Config, url: Option<string>, token: Option<string>, org: Option<string>,
                       db: Option<string>, schema: Option<string>, table: Option<string>)
    requires !Given(url) && !Given(token) && !Given(org) && !Given(db) && !Given(schema) && !Given(table)
    ensures Connect(c, url, token, org, db, schema, table) == c
  {
  }

  /** A table argument always decides the table, whatever the database. */
  lemma ConnectTableWins(c: Config, url: Option<string>, token: Option<string>, org: Option<string>,
                         db: Option<string>, schema: Option<string>, table: Option<string>)
    requires Given(table)
    ensures Connect(c, url, token, org, db, schema, table).table == table.value
  {
  }

  /** Without a table argument, the table changes only when a database is
      given and the table was empty: an existing table, derived from the
      old database or not, is kept. */
  lemma ConnectTableFromDb(c: Config, url: Option<string>, token: Option<string>, org: Option<string>,
                           db: Option<string>, schema: Option<string>, table: Option<string>)
    requires !Given(table)
    ensures Connect(c, url, token, org, db, schema, table).table ==
      if Given(db) && c.table == "" then db.value else c.table
  {
  }

  /** Applying the same call twice is the same as applying it once. */
  lemma ConnectIdempotent(c: Config, url: Option<string>, token: Option<string>, org: Option<string>,
                          db: Option<string>, schema: Option<string>, table: Option<string>)
    ensures
      var once := Connect(c, url, token, org, db, schema, table);
      Connect(once, url, token, org, db, schema, table) == once
  {
  }

  /** The table does not follow a database change when it was derived from
      the previous database. */
  lemma ConnectKeepsStaleTable(c: Config, db: Option<string>)
    requires c.db == "WFR25" && c.table == "WFR25" && db == Some("WFR26")
    ensures Connect(c, None, None, None, db, None, None).db == "WFR26"
    ensures Connect(c, None, None, None, db, None, None).table == "WFR25"
  {
  }

  /** The update the comment describes: the table follows the database when
      it was unset or equal to the OLD database. */
  function ConnectFollowingDb(c: Config, url: Option<string>, token: Option<string>, org: Option<string>,
                              db: Option<string>, schema: Option<string>, table: Option<string>): (r: Config)
    ensures r.url == Override(url, c.url) && r.token == Override(token, c.token) && r.org == Override(org, c.org)
    ensures r.db == Override(db, c.db) && r.schema == Override(schema, c.schema)
    ensures Given(table) ==> r.table == table.value
    ensures !Given(table) && c.table == c.db ==> r.table == r.db
    ensures !Given(table) && c.table != "" && c.table != c.db ==> r.table == c.table
  {
    var tableAfterDb :=
      if Given(db) && !Given(table) && (c.table == "" || c.table == c.db) then db.value else c.table;
    Config(Override(url, c.url), Override(token, c.token), Override(org, c.org),
           Override(db, c.db), Override(schema, c.schema), Override(table, tableAfterDb))
  }

  /** With the intended rule, a table derived from the database keeps
      following it across database changes, and an explicit other table is kept. */
  lemma FollowingDbTracksDb(c: Config, db: Option<string>, table: Option<string>)
    requires Given(db) && !Given(table)
    ensures c.table == c.db ==> ConnectFollowingDb(c, None, None, None, db, None, table).table == db.value
    ensures c.table != "" && c.table != c.db ==> ConnectFollowingDb(c, None, None, None, db, None, table).table == c.table
    ensures var r := ConnectFollowingDb(c, None, None, None, db, None, table);
      c.table == c.db ==> r.table == r.db
  {
  }

  /** Both rules agree unless the table equals the old database and a
      different database is given. */
  lemma ConnectRulesAgree(c: Config, url: Option<string>, token: Option<string>, org: Option<string>,
                          db: Option<string>, schema: Option<string>, table: Option<string>)
    requires c.table == "" || c.table != c.db || !Given(db) || c.db == db.value
    ensures Connect(c, url, token, org, db, schema, table) == ConnectFollowingDb(c, url, token, org, db, schema, table)
  {
  }
}

=== FILE: discovery.dfy ===
/** `discover_sensors`: chunk the range, run the splitter over each chunk
    through the executor, and return the distinct names in order. */
module Discovery {
  import opened Wrappers
  import opened Seqs
  import opened TimeRanges
  import opened Strings
  import opened Quoting
  import opened Classifier
  import opened Splitter
  import opened Executor
  import opened Settings

  /** `SELECT DISTINCT "signalName"` as the store answers it: the column's
      values, `None` for a null, or the exception's message. */
  type NameColumn = Interval -> Result<seq<Option<string>>, string>

  /** The non-null names of a column, in order. */
  function DropNone(col: seq<Option<string>>): (names: seq<string>)
    ensures |names| <= |col|
    ensures forall n :: n in names <==> Some(n) in col
  {
    if |col| == 0 then []
    else
      var rest := DropNone(col[1..]);
      assert forall n :: Some(n) in col <==> col[0] == Some(n) || Some(n) in col[1..];
      if col[0].Some? then [col[0].value] + rest else rest
  }

  /** `_query_distinct`: an empty table gives no names, nulls are dropped,
      and an exception is passed on. */
  function QueryDistinct(raw: NameColumn, span: Interval): (r: Result<seq<string>, string>)
    ensures raw(span).Failure? <==> r.Failure?
    ensures r.Failure? ==> r.error == raw(span).error
    ensures r.Success? ==> forall n :: n in r.value <==> Some(n) in raw(span).value
  {
    match raw(span)
    case Failure(e) => Failure(e)
    case Success(col) => if |col| == 0 then Success([]) else Success(DropNone(col))
  }

  /** `quote_table(schema, table)` with the defaults `_query_distinct`
      applies, each on its own: schema "iox" when the schema is empty, and
      the database as table when the table is empty. */
  function DistinctTableRef(c: Config): (r: string)
    ensures |c.schema| > 0 && |c.table| > 0 ==> r == QuoteSchemaTable(c.schema, c.table)
    ensures c.schema == "" && |c.table| > 0 ==> r == QuoteSchemaTable("iox", c.table)
    ensures |c.schema| > 0 && c.table == "" ==> r == QuoteSchemaTable(c.schema, c.db)
    ensures c.schema == "" && c.table == "" ==> r == QuoteSchemaTable("iox", c.db)
  {
    var schema := if |c.schema| > 0 then c.schema else "iox";
    var table := if |c.table| > 0 then c.table else c.db;
    QuoteSchemaTable(schema, table)
  }

  /** `_process_chunk`: the splitter with a 10-second span floor, at most
      five levels of splitting and no fallback. */
  function ChunkQuery(raw: NameColumn): (q: Query<string>)
    ensures q.fallback.None? && q.minSpan == Some(10 * Second) && q.maxDepth == 5
  {
    Query(span => QueryDistinct(raw, span), None, Some(10 * Second), 5)
  }

  /** `_process_chunk(t0, t1)`: a failure is always a permanent one, and a
      store that never raises a permanent error never makes a chunk fail. */
  function ProcessChunk(raw: NameColumn, chunk: Interval): (r: Result<seq<string>, PermanentQueryError>)
    ensures r.Failure? ==> IsPermanentError(r.error.message)
    ensures (forall span :: raw(span).Failure? ==> !IsPermanentError(raw(span).error)) ==> r.Success?
  {
    NoPermanentChunk(raw, chunk);
    Adaptive(ChunkQuery(raw), chunk.lo, chunk.hi, 0).rows
  }

  lemma NoPermanentChunk(raw: NameColumn, chunk: Interval)
    ensures (forall span :: raw(span).Failure? ==> !IsPermanentError(raw(span).error)) ==>
      Adaptive(ChunkQuery(raw), chunk.lo, chunk.hi, 0).rows.Success?
  {
    if forall span :: raw(span).Failure? ==> !IsPermanentError(raw(span).error) {
      NoPermanentNoFailure(ChunkQuery(raw), chunk.lo, chunk.hi, 0);
    }
  }

  /** The chunk list of `discover_sensors`: consecutive ranges of
      `chunkSizeDays` days covering [start, end), the last one clipped; none
      when the range is empty or the chunk size is not positive. */
  function SensorChunks(start: int, end: int, chunkSizeDays: int): (chunks: seq<Interval>)
    ensures |chunks| == 0 <==> start >= end || chunkSizeDays <= 0
    ensures |chunks| > 0 ==> Tiles(chunks, start, end)
    ensures forall i :: 0 <= i < |chunks| ==> 0 < chunks[i].Width() <= chunkSizeDays * Day
  {
    BuildChunks(start, end, chunkSizeDays * Day)
  }

  const AbortPrefix: string := "Sensor discovery aborted: "

  /** `discover_sensors(start, end, chunk_size_days)` with the chunks
      completing in `order`. The names are strictly ascending and are exactly
      the names the chunks returned; a permanent error of some chunk is
      re-raised with the prefix. */
  method DiscoverSensors(raw: NameColumn, start: int, end: int, chunkSizeDays: int, order: seq<nat>)
    returns (r: Result<seq<string>, string>)
    requires IsCompletionOrder(order, |SensorChunks(start, end, chunkSizeDays)|)
    ensures var chunks := SensorChunks(start, end, chunkSizeDays);
      var queryFn := (c: Interval) => ProcessChunk(raw, c);
      && (r.Success? <==> AllSucceed(chunks, queryFn))
      && (r.Success? ==> StrictlyAscending(r.value) && Elems(r.value) == Elems(InIndexOrder(chunks, queryFn, |chunks|)))
      && (r.Failure? ==> exists i, m :: 0 <= i < |chunks| && queryFn(chunks[i]) == Failure(PermanentQueryError(m))
                                    && IsPermanentError(m) && r.error == AbortPrefix + m)
    ensures (forall span :: raw(span) == Success([])) ==> r == Success([])
  {
    var chunks := SensorChunks(start, end, chunkSizeDays);
    var queryFn := (c: Interval) => ProcessChunk(raw, c);
    var run := RunChunksParallel(chunks, queryFn, order, true);
    match run.outcome
    case Failure(e) =>
      var k :| FirstFailure(chunks, queryFn, order, k) && queryFn(chunks[order[k]]) == Failure(run.outcome.error);
      r := Failure(AbortPrefix + e.message);
    case Success(all) =>
      var names := SortedSet(all);
      if forall span :: raw(span) == Success([]) {
        EmptyStoreNoNames(raw, chunks, |chunks|);
      }
      r := Success(names);
  }

  /** A failed chunk carries the store's own message: the name query over
      some sub-range of the chunk, no wider than it, raised exactly that
      error. */
  lemma FailureFromStore(raw: NameColumn, chunk: Interval)
    requires ProcessChunk(raw, chunk).Failure?
    ensures exists span :: Within(span, chunk.lo, chunk.hi) && raw(span) == Failure(ProcessChunk(raw, chunk).error.message)
  {
    var a := Adaptive(ChunkQuery(raw), chunk.lo, chunk.hi, 0);
    var c :| c in a.primaryCalls && ChunkQuery(raw).primary(c.span) == Failure(a.rows.error.message);
    assert Within(c.span, chunk.lo, chunk.hi);
  }

  /** Every name a chunk returns came from a successful query of one of its
      pieces; pieces left unresolved at a floor contribute nothing. */
  lemma ChunkNamesFromQueries(raw: NameColumn, chunk: Interval, n: string)
    requires ProcessChunk(raw, chunk).Success? && n in ProcessChunk(raw, chunk).value
    ensures exists l :: (l in Adaptive(ChunkQuery(raw), chunk.lo, chunk.hi, 0).leaves
                         && l.source == FromPrimary && Some(n) in raw(l.span).value)
  {
    var q := ChunkQuery(raw);
    var a := Adaptive(q, chunk.lo, chunk.hi, 0);
    var l := GatherOrigin(q, a.leaves, n);
    assert q.primary(l.span) == QueryDistinct(raw, l.span);
  }

  /** A name in the gathered rows comes from a leaf answered by the primary:
      with no fallback the floor leaves are dropped. */
  lemma {:induction false} GatherOrigin(q: Query<string>, leaves: seq<Leaf>, n: string) returns (l: Leaf)
    requires q.fallback.None? && n in q.Gather(leaves)
    ensures l in leaves && l.source == FromPrimary
    ensures q.primary(l.span).Success? && n in q.primary(l.span).value
  {
    if n in q.LeafRows(leaves[0]) {
      l := leaves[0];
      assert l.source == FromPrimary;
    } else {
      l := GatherOrigin(q, leaves[1..], n);
    }
  }

  /** When every query answers an empty table, every chunk gives no names. */
  lemma EmptyStoreChunk(raw: NameColumn, chunk: Interval)
    requires forall span :: raw(span) == Success([])
    ensures ProcessChunk(raw, chunk) == Success([])
  {
  }

  /** When every query answers an empty table, discovery finds no names. */
  lemma EmptyStoreNoNames(raw: NameColumn, chunks: seq<Interval>, i: nat)
    requires forall span :: raw(span) == Success([])
    requires i <= |chunks|
    ensures forall j :: 0 <= j < i ==> ProcessChunk(raw, chunks[j]).Success?
    ensures InIndexOrder(chunks, (c: Interval) => ProcessChunk(raw, c), i) == []
  {
    var queryFn := (c: Interval) => ProcessChunk(raw, c);
    forall j | 0 <= j < i ensures queryFn(chunks[j]) == Success([]) {
      EmptyStoreChunk(raw, chunks[j]);
    }
    InIndexOrderEmpty(chunks, queryFn, i);
  }

  /** Ten days in seven-day chunks make two chunks, the second one clipped. */
  lemma TenDaysInWeeks(start: int)
    ensures SensorChunks(start, start + 10 * Day, 7) == [Interval(start, start + 7 * Day), Interval(start + 7 * Day, start + 10 * Day)]
  {
    var w := 7 * Day;
    assert BuildChunks(start + 10 * Day, start + 10 * Day, w) == [];
    assert BuildChunks(start + 7 * Day, start + 10 * Day, w) == [Interval(start + 7 * Day, start + 10 * Day)];
  }
}

=== FILE: executor.dfy ===
/** `run_chunks_parallel`, sequentialised: the worker pool is replaced by an
    arbitrary completion order of the chunks, and the client factory, the
    `close` calls and the progress callback are recorded as a trace of effects. */
module Executor {
  import opened Wrappers
  import opened TimeRanges
  import opened Seqs

  /** An observable side effect. Client `k` is the one the factory made for chunk `k`. */
  datatype Effect = ClientCreated(client: nat) | ChunkDone(index: nat) | ClientClosed(client: nat)

  /** The outcome of a run (rows, or the first error met in completion order)
      and the effects it had, in the order they happened. */
  datatype Run<T, E> = Run(outcome: Result<seq<T>, E>, effects: seq<Effect>)

  /** `order` lists every chunk index `0 .. n-1` exactly once: the order in
      which `as_completed` hands back the futures. */
  predicate IsCompletionOrder(order: seq<nat>, n: nat)
  {
    && |order| == n
    && (forall k :: 0 <= k < n ==> order[k] < n)
    && (forall j, k :: 0 <= j < k < n ==> order[j] != order[k])
    && (forall i :: 0 <= i < n ==> i in order)
  }

  predicate AllSucceed<T, E>(chunks: seq<Interval>, queryFn: Interval -> Result<seq<T>, E>)
  {
    forall i :: 0 <= i < |chunks| ==> queryFn(chunks[i]).Success?
  }

  /** The chunk completing `k`-th is the first one in completion order that failed. */
  predicate FirstFailure<T, E>(chunks: seq<Interval>, queryFn: Interval -> Result<seq<T>, E>, order: seq<nat>, k: int)
    requires IsCompletionOrder(order, |chunks|)
  {
    && 0 <= k < |chunks|
    && queryFn(chunks[order[k]]).Failure?
    && forall j :: 0 <= j < k ==> queryFn(chunks[order[j]]).Success?
  }

  /** The results of chunks `0 .. i-1`, concatenated in chunk-index order. */
  function InIndexOrder<T, E>(chunks: seq<Interval>, queryFn: Interval -> Result<seq<T>, E>, i: nat): seq<T>
    requires i <= |chunks|
    requires forall j :: 0 <= j < i ==> queryFn(chunks[j]).Success?
  {
    if i == 0 then [] else InIndexOrder(chunks, queryFn, i - 1) + queryFn(chunks[i - 1]).value
  }

  /** Chunks that all answer nothing reassemble to nothing. */
  lemma {:induction false} InIndexOrderEmpty<T, E>(chunks: seq<Interval>, queryFn: Interval -> Result<seq<T>, E>, i: nat)
    requires i <= |chunks|
    requires forall j :: 0 <= j < i ==> queryFn(chunks[j]) == Success([])
    ensures InIndexOrder(chunks, queryFn, i) == []
  {
    if i > 0 {
      InIndexOrderEmpty(chunks, queryFn, i - 1);
    }
  }

  /** One `ClientCreated` per chunk, in submission order. */
  function Created(n: nat): seq<Effect>
  {
    if n == 0 then [] else Created(n - 1) + [ClientCreated(n - 1)]
  }

  /** One `ClientClosed` per client, in creation order. */
  function Closed(n: nat): seq<Effect>
  {
    if n == 0 then [] else Closed(n - 1) + [ClientClosed(n - 1)]
  }

  /** The progress notifications for `indices`, if a callback was given. */
  function Notified(indices: seq<nat>, notify: bool): seq<Effect>
  {
    if !notify || |indices| == 0 then [] else Notified(indices[..|indices| - 1], notify) + [ChunkDone(indices[|indices| - 1])]
  }

  /** The effect trace a run leaves: all clients made, the completed chunks
      reported, all clients closed. */
  function Trace(n: nat, completed: seq<nat>, notify: bool): seq<Effect>
  {
    Created(n) + Notified(completed, notify) + Closed(n)
  }

  /** The submission loop: the factory is called once per chunk, in order,
      so the `k`-th effect creates client `k`. Only the trace is built here;
      what a run promises about its clients is stated on `RunChunksParallel`
      and in `ClientsClosedOnce`. */
  method CreateClients(n: nat) returns (effects: seq<Effect>)
    ensures |effects| == n && forall k :: 0 <= k < n ==> effects[k] == ClientCreated(k)
    ensures effects == Created(n)
  {
    effects := [];
    var k := 0;
    while k < n
      invariant 0 <= k <= n
      invariant |effects| == k && forall j :: 0 <= j < k ==> effects[j] == ClientCreated(j)
    {
      effects := effects + [ClientCreated(k)];
      k := k + 1;
    }
    CreatedShape(n);
  }

  /** The `as_completed` loop: results are stored by chunk index as the
      chunks complete in `order`, until the first failure, which is re-raised. */
  method Collect<T, E>(chunks: seq<Interval>, queryFn: Interval -> Result<seq<T>, E>, order: seq<nat>, notify: bool)
    returns (results: map<nat, seq<T>>, failedAt: Option<nat>, notices: seq<Effect>)
    requires IsCompletionOrder(order, |chunks|)
    ensures failedAt.Some? ==> FirstFailure(chunks, queryFn, order, failedAt.value) && notices == Notified(order[..failedAt.value], notify)
    ensures failedAt.None? ==> notices == Notified(order, notify)
    ensures failedAt.None? ==> forall i :: 0 <= i < |chunks| ==> i in results && queryFn(chunks[i]) == Success(results[i])
  {
    var n := |chunks|;
    results := map[];
    failedAt := None;
    notices := [];
    var completed := 0;
    while completed < n
      invariant 0 <= completed <= n
      invariant forall j :: 0 <= j < completed ==> queryFn(chunks[order[j]]).Success?
      invariant forall j :: 0 <= j < completed ==> order[j] in results
      invariant forall i :: i in results ==> i < n && queryFn(chunks[i]) == Success(results[i])
      invariant notices == Notified(order[..completed], notify)
    {
      var idx := order[completed];
      var r := queryFn(chunks[idx]);
      if r.Failure? {
        failedAt := Some(completed);
        return;
      }
      results := results[idx := r.value];
      assert order[..completed + 1][..completed] == order[..completed];
      if notify {
        notices := notices + [ChunkDone(idx)];
      }
      completed := completed + 1;
    }
    assert order[..completed] == order;
    forall i | 0 <= i < n ensures i in results {
      assert i in order;
      var j :| 0 <= j < n && order[j] == i;
    }
  }

  /** The `finally` block: every client is closed, in creation order, so
      the `c`-th effect closes client `c`. Only the trace is built here, as
      for `CreateClients`. */
  method CloseClients(n: nat) returns (effects: seq<Effect>)
    ensures |effects| == n && forall c :: 0 <= c < n ==> effects[c] == ClientClosed(c)
    ensures effects == Closed(n)
  {
    effects := [];
    var c := 0;
    while c < n
      invariant 0 <= c <= n
      invariant |effects| == c && forall j :: 0 <= j < c ==> effects[j] == ClientClosed(j)
    {
      effects := effects + [ClientClosed(c)];
      c := c + 1;
    }
    ClosedShape(n);
  }

  /** `for idx in sorted(results.keys()): ordered.extend(results[idx])`. */
  method Reassemble<T, E>(chunks: seq<Interval>, queryFn: Interval -> Result<seq<T>, E>, results: map<nat, seq<T>>)
    returns (ordered: seq<T>)
    requires forall i :: 0 <= i < |chunks| ==> i in results && queryFn(chunks[i]) == Success(results[i])
    ensures ordered == InIndexOrder(chunks, queryFn, |chunks|)
  {
    ordered := [];
    var i := 0;
    while i < |chunks|
      invariant 0 <= i <= |chunks|
      invariant ordered == InIndexOrder(chunks, queryFn, i)
    {
      ordered := ordered + results[i];
      i := i + 1;
    }
  }

  /** `run_chunks_parallel(factory, chunks, query_fn, max_workers, on_chunk_done)`
      with the futures completing in `order`; `notify` says whether
      `on_chunk_done` was given. */
  method RunChunksParallel<T, E>(chunks: seq<Interval>, queryFn: Interval -> Result<seq<T>, E>, order: seq<nat>, notify: bool)
    returns (run: Run<T, E>)
    requires IsCompletionOrder(order, |chunks|)
    ensures |chunks| == 0 ==> run == Run(Success([]), [])
    ensures run.outcome.Success? <==> AllSucceed(chunks, queryFn)
    ensures run.outcome.Success? ==>
      && run.outcome.value == InIndexOrder(chunks, queryFn, |chunks|)
      && run.effects == Trace(|chunks|, order, notify)
    ensures run.outcome.Failure? ==>
      exists k :: FirstFailure(chunks, queryFn, order, k)
        && queryFn(chunks[order[k]]) == Failure(run.outcome.error)
        && run.effects == Trace(|chunks|, order[..k], notify)
  {
    var n := |chunks|;
    if n == 0 {
      return Run(Success([]), []);
    }
    var created := CreateClients(n);
    var results, failedAt, notices := Collect(chunks, queryFn, order, notify);
    var closed := CloseClients(n);
    var effects := created + notices + closed;
    if failedAt.Some? {
      var k := failedAt.value;
      return Run(Failure(queryFn(chunks[order[k]]).error), effects);
    }
    var ordered := Reassemble(chunks, queryFn, results);
    return Run(Success(ordered), effects);
  }

  /** `Created(n)` makes client `k` as its `k`-th effect and nothing else. */
  lemma {:induction false} CreatedShape(n: nat)
    ensures |Created(n)| == n
    ensures forall k :: 0 <= k < n ==> Created(n)[k] == ClientCreated(k)
  {
    if n > 0 {
      CreatedShape(n - 1);
    }
  }

  /** `Closed(n)` closes client `k` as its `k`-th effect and nothing else. */
  lemma {:induction false} ClosedShape(n: nat)
    ensures |Closed(n)| == n
    ensures forall k :: 0 <= k < n ==> Closed(n)[k] == ClientClosed(k)
  {
    if n > 0 {
      ClosedShape(n - 1);
    }
  }

  lemma {:induction false} CreatedCount(n: nat, e: Effect)
    ensures multiset(Created(n))[e] == if e.ClientCreated? && e.client < n then 1 else 0
  {
    if n > 0 {
      CreatedCount(n - 1, e);
    }
  }

  lemma {:induction false} ClosedCount(n: nat, e: Effect)
    ensures multiset(Closed(n))[e] == if e.ClientClosed? && e.client < n then 1 else 0
  {
    if n > 0 {
      ClosedCount(n - 1, e);
    }
  }

  /** Each notification is for one of `indices`, once per occurrence. */
  lemma {:induction false} NotifiedCount(indices: seq<nat>, notify: bool, e: Effect)
    ensures multiset(Notified(indices, notify))[e] == if notify && e.ChunkDone? then multiset(indices)[e.index] else 0
    decreases |indices|
  {
    if notify && |indices| > 0 {
      var m := |indices| - 1;
      assert indices == indices[..m] + [indices[m]];
      NotifiedCount(indices[..m], notify, e);
    }
  }

  /** How often an effect occurs in a trace. */
  lemma TraceCount(n: nat, completed: seq<nat>, notify: bool, e: Effect)
    ensures multiset(Trace(n, completed, notify))[e] ==
      match e
      case ClientCreated(c) => (if c < n then 1 else 0)
      case ClientClosed(c) => (if c < n then 1 else 0)
      case ChunkDone(i) => (if notify then multiset(completed)[i] else 0)
  {
    CreatedCount(n, e);
    NotifiedCount(completed, notify, e);
    ClosedCount(n, e);
  }

  /** Whatever prefix of the completion order was reached, every client is
      created exactly once and closed exactly once, no other client is
      touched, and no chunk is reported twice. */
  lemma ClientsClosedOnce(order: seq<nat>, n: nat, k: nat, notify: bool)
    requires IsCompletionOrder(order, n) && k <= n
    ensures forall c: nat :: multiset(Trace(n, order[..k], notify))[ClientCreated(c)] == (if c < n then 1 else 0)
    ensures forall c: nat :: multiset(Trace(n, order[..k], notify))[ClientClosed(c)] == (if c < n then 1 else 0)
    ensures forall i: nat :: multiset(Trace(n, order[..k], notify))[ChunkDone(i)] <= 1
  {
    forall c: nat ensures multiset(Trace(n, order[..k], notify))[ClientCreated(c)] == (if c < n then 1 else 0) {
      TraceCount(n, order[..k], notify, ClientCreated(c));
    }
    forall c: nat ensures multiset(Trace(n, order[..k], notify))[ClientClosed(c)] == (if c < n then 1 else 0) {
      TraceCount(n, order[..k], notify, ClientClosed(c));
    }
    forall i: nat ensures multiset(Trace(n, order[..k], notify))[ChunkDone(i)] <= 1 {
      TraceCount(n, order[..k], notify, ChunkDone(i));
      PrefixCount(order, k, i);
    }
  }

  /** The effects of a run of `n` chunks whose factory raises while making
      the client for chunk `k`, as written: clients `0 .. k-1` exist, but the
      exception leaves before the `try`, so the `finally` never runs. */
  function FactoryRaisesAsWritten(n: nat, k: nat): (effects: seq<Effect>)
    requires k < n
    ensures |effects| == k && forall j :: 0 <= j < k ==> effects[j] == ClientCreated(j)
  {
    CreatedShape(k);
    Created(k)
  }

  /** The same run with the submission loop inside the `try`: the `finally`
      closes every client made before the factory raised, in creation order. */
  function FactoryRaisesGuarded(n: nat, k: nat): (effects: seq<Effect>)
    requires k < n
    ensures |effects| == 2 * k
    ensures forall j :: 0 <= j < k ==> effects[j] == ClientCreated(j) && effects[k + j] == ClientClosed(j)
  {
    CreatedShape(k);
    ClosedShape(k);
    Created(k) + Closed(k)
  }

  /** As written, every client made before the factory raised is left open. */
  lemma FactoryFailureLeaks(n: nat, k: nat)
    requires k < n
    ensures forall c: nat :: multiset(FactoryRaisesAsWritten(n, k))[ClientCreated(c)] == (if c < k then 1 else 0)
    ensures forall c: nat :: multiset(FactoryRaisesAsWritten(n, k))[ClientClosed(c)] == 0
  {
    forall c: nat ensures multiset(FactoryRaisesAsWritten(n, k))[ClientCreated(c)] == (if c < k then 1 else 0) {
      CreatedCount(k, ClientCreated(c));
    }
    forall c: nat ensures multiset(FactoryRaisesAsWritten(n, k))[ClientClosed(c)] == 0 {
      CreatedCount(k, ClientClosed(c));
    }
  }

  /** With the guard, every client made before the factory raised is closed
      exactly once and no other client is touched, as on a run whose factory
      never raises (`ClientsClosedOnce`). */
  lemma FactoryFailureClosesCreated(n: nat, k: nat)
    requires k < n
    ensures forall c: nat :: multiset(FactoryRaisesGuarded(n, k))[ClientCreated(c)] == (if c < k then 1 else 0)
    ensures forall c: nat :: multiset(FactoryRaisesGuarded(n, k))[ClientClosed(c)] == (if c < k then 1 else 0)
  {
    forall c: nat ensures multiset(FactoryRaisesGuarded(n, k))[ClientCreated(c)] == (if c < k then 1 else 0) {
      CreatedCount(k, ClientCreated(c));
      ClosedCount(k, ClientCreated(c));
    }
    forall c: nat ensures multiset(FactoryRaisesGuarded(n, k))[ClientClosed(c)] == (if c < k then 1 else 0) {
      CreatedCount(k, ClientClosed(c));
      ClosedCount(k, ClientClosed(c));
    }
  }

  /** A prefix of a duplicate-free sequence holds each element at most once. */
  lemma PrefixCount(s: seq<nat>, k: nat, x: nat)
    requires Distinct(s) && k <= |s|
    ensures multiset(s[..k])[x] <= 1
  {
    assert s == s[..k] + s[k..];
    assert multiset(s) == multiset(s[..k]) + multiset(s[k..]);
    DistinctCount(s, x);
  }

  /** On success with a callback, every chunk index is reported exactly once. */
  lemma EveryChunkReported(order: seq<nat>, n: nat)
    requires IsCompletionOrder(order, n)
    ensures forall i: nat :: multiset(Trace(n, order, true))[ChunkDone(i)] == (if i < n then 1 else 0)
  {
    forall i: nat ensures multiset(Trace(n, order, true))[ChunkDone(i)] == (if i < n then 1 else 0) {
      TraceCount(n, order, true, ChunkDone(i));
      assert Distinct(order);
      DistinctCount(order, i);
    }
  }

  /** Every client is created before any client is closed. */
  lemma CreatedBeforeClosed(n: nat, completed: seq<nat>, notify: bool, a: nat, b: nat)
    requires a < |Trace(n, completed, notify)| && b < |Trace(n, completed, notify)|
    requires Trace(n, completed, notify)[a].ClientClosed? && Trace(n, completed, notify)[b].ClientCreated?
    ensures b < a
  {
    CreatedShape(n);
    ClosedShape(n);
    NotifiedKinds(completed, notify);
  }

  lemma {:induction false} NotifiedKinds(indices: seq<nat>, notify: bool)
    ensures forall k :: 0 <= k < |Notified(indices, notify)| ==> Notified(indices, notify)[k].ChunkDone?
    decreases |indices|
  {
    if notify && |indices| > 0 {
      NotifiedKinds(indices[..|indices| - 1], notify);
    }
  }
}

=== FILE: quoting.dfy ===
/** Building the double-quoted SQL table reference. */
module Quoting {
  import opened Wrappers

  /** The position of the first `c` in `s`, if any. */
  function FirstIndex(s: string, c: char): (r: Option<nat>)
    ensures r.None? <==> c !in s
    ensures r.Some? ==> r.value < |s| && s[r.value] == c && c !in s[..r.value]
  {
    if |s| == 0 then None
    else if s[0] == c then Some(0)
    else
      var rest := FirstIndex(s[1..], c);
      if rest.None? then None
      else
        assert s[..rest.value + 1] == [s[0]] + s[1..][..rest.value];
        Some(rest.value + 1)
  }

  /** `quote_table(schema, table)`: `"schema"."table"`. */
  function QuoteSchemaTable(schema: string, table: string): (r: string)
    ensures |r| == |schema| + |table| + 5
    ensures r[0] == '"' && r[|r| - 1] == '"'
    ensures r[1..|schema| + 1] == schema && r[|schema| + 1..|schema| + 4] == "\".\""
    ensures r[|schema| + 4..|r| - 1] == table
  {
    "\"" + schema + "\".\"" + table + "\""
  }

  /** `_quote_table(table)`: the name is split at its first dot into a schema
      and the rest; a name without a dot is quoted whole. */
  function QuoteTable(table: string): (r: string)
    ensures '.' !in table ==> r == "\"" + table + "\""
    ensures '.' in table ==> exists schema, rest :: '.' !in schema && table == schema + "." + rest && r == QuoteSchemaTable(schema, rest)
  {
    match FirstIndex(table, '.')
    case None => "\"" + table + "\""
    case Some(k) =>
      assert table == table[..k] + "." + table[k + 1..];
      QuoteSchemaTable(table[..k], table[k + 1..])
  }

  /** For a dot-free schema, the scanner's single-name quoting of
      "schema.table" agrees with the two-part quoting. */
  lemma QuotingAgrees(schema: string, table: string)
    requires '.' !in schema
    ensures QuoteTable(schema + "." + table) == QuoteSchemaTable(schema, table)
  {
    var name := schema + "." + table;
    assert name[|schema|] == '.';
    assert name[..|schema|] == schema;
    var k := FirstIndex(name, '.');
    assert k == Some(|schema|);
    assert name[|schema| + 1..] == table;
  }
}

=== FILE: scan_result.dfy ===
/** `scan_data_availability` after the fetch: windows grouped by day into a
    `ScanResult`, and the result's accessors. A day key is whatever
    `dayOf` gives for a window's start; the time zone conversion and
    `strftime` behind it are not part of this model. */
module ScanResults {
  import opened Wrappers
  import opened Seqs
  import opened Strings
  import opened TimeRanges
  import opened Windows
  import opened Scanner

  /** One key of `_data` with its windows, in the order they were added. */
  datatype DayEntry = DayEntry(day: string, windows: seq<Window>)

  /** `ScanResult._data`: a dict, modelled as its entries in insertion order. */
  datatype ScanResult = ScanResult(data: seq<DayEntry>)

  function Keys(data: seq<DayEntry>): (ks: seq<string>)
    ensures |ks| == |data|
    ensures forall i :: 0 <= i < |data| ==> ks[i] == data[i].day
  {
    seq(|data|, i requires 0 <= i < |data| => data[i].day)
  }

  /** A dict never holds a key twice. */
  predicate Valid(r: ScanResult)
  {
    Distinct(Keys(r.data))
  }

  /** The position of `day` among the keys, if it is one. */
  function IndexOf(data: seq<DayEntry>, day: string): (r: Option<nat>)
    ensures r.None? <==> day !in Keys(data)
    ensures r.Some? ==> r.value < |data| && data[r.value].day == day
  {
    if |data| == 0 then None
    else if data[0].day == day then Some(0)
    else
      match IndexOf(data[1..], day)
      case None =>
        assert Keys(data) == [data[0].day] + Keys(data[1..]);
        None
      case Some(i) => Some(i + 1)
  }

  /** `self._data[day]`. */
  function Lookup(r: ScanResult, day: string): (ws: seq<Window>)
    requires day in Keys(r.data)
    ensures DayEntry(day, ws) in r.data
  {
    var i := IndexOf(r.data, day).value;
    assert r.data[i] == DayEntry(day, r.data[i].windows);
    r.data[i].windows
  }

  /** `__len__`: the number of days with data. */
  function Len(r: ScanResult): (n: nat)
    requires Valid(r)
    ensures n == |Elems(Keys(r.data))|
  {
    DistinctCardinality(Keys(r.data));
    |r.data|
  }

  /** `days`: the day keys in ascending order. */
  function Days(r: ScanResult): (days: seq<string>)
    requires Valid(r)
    ensures StrictlyAscending(days)
    ensures Elems(days) == Elems(Keys(r.data))
    ensures |days| == Len(r)
  {
    var days := SortedSet(Keys(r.data));
    AscendingIsDistinct(days);
    DistinctCardinality(days);
    days
  }

  /** `__iter__`: the `(day, windows)` pairs in ascending day order. */
  function Iter(r: ScanResult): (it: seq<DayEntry>)
    requires Valid(r)
    ensures |it| == Len(r)
    ensures Keys(it) == Days(r)
    ensures StrictlyAscending(Keys(it))
    ensures forall i :: 0 <= i < |it| ==> it[i] in r.data
  {
    var days := Days(r);
    forall i | 0 <= i < |days| ensures days[i] in Keys(r.data) {
      assert days[i] in Elems(days);
    }
    var it := seq(|days|, i requires 0 <= i < |days| => DayEntry(days[i], Lookup(r, days[i])));
    assert Keys(it) == days;
    it
  }

  function EntryRows(e: DayEntry): int
  {
    Sum(WindowRows, e.windows)
  }

  /** All windows, day after day. */
  function AllWindows(data: seq<DayEntry>): seq<Window>
  {
    if |data| == 0 then [] else data[0].windows + AllWindows(data[1..])
  }

  /** `total_rows`: the row counts of every window of every day, summed
      day by day; the same as summing the row counts of all the windows. */
  function TotalRows(r: ScanResult): (total: int)
    ensures total == Sum(WindowRows, AllWindows(r.data))
  {
    SumAllWindows(r.data);
    Sum(EntryRows, r.data)
  }

  lemma {:induction false} SumAllWindows(data: seq<DayEntry>)
    ensures Sum(EntryRows, data) == Sum(WindowRows, AllWindows(data))
  {
    if |data| > 0 {
      SumAllWindows(data[1..]);
      SumAppend(WindowRows, data[0].windows, AllWindows(data[1..]));
    }
  }

  /** Iteration lists every entry exactly once. */
  lemma IterPermutation(r: ScanResult)
    requires Valid(r)
    ensures multiset(Iter(r)) == multiset(r.data)
  {
    var it := Iter(r);
    AscendingIsDistinct(Keys(it));
    DistinctKeysDistinctEntries(it);
    DistinctKeysDistinctEntries(r.data);
    forall e | e in r.data ensures e in Elems(it) {
      IterHas(r, e);
    }
    assert Elems(it) == Elems(r.data);
    DistinctSameElements(it, r.data);
  }

  /** Entries with different days are different entries. */
  lemma DistinctKeysDistinctEntries(data: seq<DayEntry>)
    requires Distinct(Keys(data))
    ensures Distinct(data)
  {
    forall i, j | 0 <= i < j < |data| ensures data[i] != data[j] {
      assert Keys(data)[i] != Keys(data)[j];
    }
  }

  /** A stored entry is listed by iteration. */
  lemma IterHas(r: ScanResult, e: DayEntry)
    requires Valid(r) && e in r.data
    ensures e in Iter(r)
  {
    var it := Iter(r);
    var k :| 0 <= k < |r.data| && r.data[k] == e;
    assert Keys(r.data)[k] == e.day;
    assert e.day in Elems(Days(r));
    var i :| 0 <= i < |it| && Keys(it)[i] == e.day;
    SameDaySameEntry(r.data, it[i], e);
  }

  /** Without repeated keys, an entry is determined by its day. */
  lemma SameDaySameEntry(data: seq<DayEntry>, e: DayEntry, f: DayEntry)
    requires Distinct(Keys(data)) && e in data && f in data && e.day == f.day
    ensures e == f
  {
    var i :| 0 <= i < |data| && data[i] == e;
    var j :| 0 <= j < |data| && data[j] == f;
    assert Keys(data)[i] == Keys(data)[j];
  }

  /** The total does not depend on the order the days are visited in. */
  lemma TotalRowsInDayOrder(r: ScanResult)
    requires Valid(r)
    ensures Sum(EntryRows, Iter(r)) == TotalRows(r)
  {
    IterPermutation(r);
    SumPermutation(EntryRows, Iter(r), r.data);
  }

  // ---------------------------------------------------------------------
  // Grouping windows by day

  /** The window stored for a compressed window: `row_count` is zeroed
      unless counts were requested. The local times are not modelled. */
  function Stored(w: Window, includeCounts: bool): Window
  {
    if includeCounts then w else Window(w.start, w.end, w.bins, 0)
  }

  /** `grouped[day]` on a `defaultdict(list)`: the day's windows, or none. */
  function WindowsOf(data: seq<DayEntry>, day: string): (ws: seq<Window>)
    ensures day !in Keys(data) ==> ws == []
    ensures day in Keys(data) ==> DayEntry(day, ws) in data
  {
    match IndexOf(data, day)
    case None => []
    case Some(i) =>
      assert data[i] == DayEntry(day, data[i].windows);
      data[i].windows
  }

  /** `r` is `data` with `w` appended to the windows of `day`: the day's
      windows end with `w`, and the entries of the other days are the same. */
  predicate AppendedTo(data: seq<DayEntry>, day: string, w: Window, r: seq<DayEntry>)
  {
    && (forall e :: e in r && e.day == day ==> e.windows == WindowsOf(data, day) + [w])
    && (forall e :: e in r && e.day != day ==> e in data)
    && (forall e :: e in data && e.day != day ==> e in r)
  }

  /** `grouped[day_key].append(...)` on a `defaultdict(list)`: the keys
      gain `day` and the rows gain `w`'s. */
  function AddWindow(data: seq<DayEntry>, day: string, w: Window): (r: seq<DayEntry>)
    requires Distinct(Keys(data))
    ensures Distinct(Keys(r))
    ensures Elems(Keys(r)) == Elems(Keys(data)) + {day}
    ensures Sum(EntryRows, r) == Sum(EntryRows, data) + w.rows
  {
    match IndexOf(data, day)
    case None =>
      var r := data + [DayEntry(day, [w])];
      AddNewSums(data, day, w);
      assert Keys(r) == Keys(data) + [day];
      r
    case Some(i) =>
      var e := DayEntry(day, data[i].windows + [w]);
      var r := data[i := e];
      AddExistingSums(data, i, e, w);
      assert Keys(r) == Keys(data);
      r
  }

  /** Appending to a day: `w` becomes the last window of `day`, a new day is
      added after the others, and every other entry is kept as it was. */
  lemma AddWindowAppends(data: seq<DayEntry>, day: string, w: Window)
    requires Distinct(Keys(data))
    ensures var r := AddWindow(data, day, w);
      && Keys(r) == (if day in Keys(data) then Keys(data) else Keys(data) + [day])
      && AppendedTo(data, day, w, r)
  {
    var r := AddWindow(data, day, w);
    match IndexOf(data, day)
    case None =>
      assert Keys(r) == Keys(data) + [day];
      AddNewEntries(data, day, w);
    case Some(i) =>
      var e := DayEntry(day, data[i].windows + [w]);
      assert Keys(r) == Keys(data);
      AddExistingEntries(data, i, e);
  }

  /** Appending the entry of a new day. */
  lemma AddNewEntries(data: seq<DayEntry>, day: string, w: Window)
    requires day !in Keys(data)
    ensures forall e :: e in data + [DayEntry(day, [w])] && e.day == day ==> e.windows == [w]
    ensures forall e :: e in data + [DayEntry(day, [w])] && e.day != day ==> e in data
  {
    forall e | e in data ensures e.day != day {
      var k :| 0 <= k < |data| && data[k] == e;
      assert Keys(data)[k] == e.day;
    }
  }

  /** Replacing the entry of an existing day. */
  lemma AddExistingEntries(data: seq<DayEntry>, i: nat, e: DayEntry)
    requires Distinct(Keys(data)) && i < |data| && e.day == data[i].day
    ensures forall f :: f in data[i := e] && f.day == e.day ==> f == e
    ensures forall f :: f in data[i := e] && f.day != e.day ==> f in data
    ensures forall f :: f in data && f.day != e.day ==> f in data[i := e]
  {
    var r := data[i := e];
    forall f | f in r && f.day == e.day ensures f == e {
      var k :| 0 <= k < |r| && r[k] == f;
    }
    forall f | f in r && f.day != e.day ensures f in data {
      var k :| 0 <= k < |r| && r[k] == f;
      assert k != i && r[k] == data[k];
    }
    forall f | f in data && f.day != e.day ensures f in r {
      var k :| 0 <= k < |data| && data[k] == f;
      assert k != i && r[k] == data[k];
    }
  }

  lemma AddNewSums(data: seq<DayEntry>, day: string, w: Window)
    ensures Sum(EntryRows, data + [DayEntry(day, [w])]) == Sum(EntryRows, data) + w.rows
  {
    var e := DayEntry(day, [w]);
    SumAppend(EntryRows, data, [e]);
    assert Sum(WindowRows, e.windows) == w.rows;
  }

  lemma AddExistingSums(data: seq<DayEntry>, i: nat, e: DayEntry, w: Window)
    requires i < |data| && e.windows == data[i].windows + [w]
    ensures Sum(EntryRows, data[i := e]) == Sum(EntryRows, data) + w.rows
  {
    SumAppend(WindowRows, data[i].windows, [w]);
    assert Sum(WindowRows, [w]) == w.rows;
    SumRemoveAt(EntryRows, data, i);
    SumRemoveAt(EntryRows, data[i := e], i);
    assert RemoveAt(data[i := e], i) == RemoveAt(data, i);
  }

  /** The grouping loop of `scan_data_availability`, window by window. */
  function GroupByDay(ws: seq<Window>, dayOf: int -> string, includeCounts: bool): (data: seq<DayEntry>)
    ensures Distinct(Keys(data))
  {
    if |ws| == 0 then []
    else
      var m := |ws| - 1;
      AddWindow(GroupByDay(ws[..m], dayOf, includeCounts), dayOf(ws[m].start), Stored(ws[m], includeCounts))
  }

  /** The windows whose start falls on `day`, in order, as they are stored:
      a list comprehension over the compressed windows. */
  function OnDay(ws: seq<Window>, dayOf: int -> string, includeCounts: bool, day: string): seq<Window>
  {
    if |ws| == 0 then []
    else
      var m := |ws| - 1;
      OnDay(ws[..m], dayOf, includeCounts, day) + (if dayOf(ws[m].start) == day then [Stored(ws[m], includeCounts)] else [])
  }

  /** Every window listed for `day` starts on `day`. */
  lemma {:induction false} OnDayStarts(ws: seq<Window>, dayOf: int -> string, includeCounts: bool, day: string)
    ensures forall v :: v in OnDay(ws, dayOf, includeCounts, day) ==> dayOf(v.start) == day
  {
    if |ws| > 0 {
      OnDayStarts(ws[..|ws| - 1], dayOf, includeCounts, day);
    }
  }

  /** A day on which no window starts lists nothing. */
  lemma {:induction false} OnDayNone(ws: seq<Window>, dayOf: int -> string, includeCounts: bool, day: string)
    requires day !in DayKeys(ws, dayOf)
    ensures OnDay(ws, dayOf, includeCounts, day) == []
  {
    if |ws| > 0 {
      var m := |ws| - 1;
      DayKeysSnoc(ws, dayOf);
      OnDayNone(ws[..m], dayOf, includeCounts, day);
    }
  }

  /** Each day holds exactly its windows, in the order they were compressed. */
  lemma {:induction false} GroupByDayWindows(ws: seq<Window>, dayOf: int -> string, includeCounts: bool)
    ensures forall e :: e in GroupByDay(ws, dayOf, includeCounts) ==> e.windows == OnDay(ws, dayOf, includeCounts, e.day)
  {
    if |ws| > 0 {
      var m := |ws| - 1;
      var prev := GroupByDay(ws[..m], dayOf, includeCounts);
      var d, w := dayOf(ws[m].start), Stored(ws[m], includeCounts);
      GroupByDayWindows(ws[..m], dayOf, includeCounts);
      GroupByDayKeys(ws[..m], dayOf, includeCounts);
      AddWindowAppends(prev, d, w);
      forall e | e in GroupByDay(ws, dayOf, includeCounts) ensures e.windows == OnDay(ws, dayOf, includeCounts, e.day) {
        EntryAfterAdd(ws, dayOf, includeCounts, prev, e);
      }
    }
  }

  /** One grouping step keeps every entry equal to its day's windows. */
  lemma EntryAfterAdd(ws: seq<Window>, dayOf: int -> string, includeCounts: bool, prev: seq<DayEntry>, e: DayEntry)
    requires |ws| > 0 && Distinct(Keys(prev))
    requires forall f :: f in prev ==> f.windows == OnDay(ws[..|ws| - 1], dayOf, includeCounts, f.day)
    requires Elems(Keys(prev)) == DayKeys(ws[..|ws| - 1], dayOf)
    requires var d, w := dayOf(ws[|ws| - 1].start), Stored(ws[|ws| - 1], includeCounts);
      AppendedTo(prev, d, w, AddWindow(prev, d, w)) && e in AddWindow(prev, d, w)
    ensures e.windows == OnDay(ws, dayOf, includeCounts, e.day)
  {
    var m := |ws| - 1;
    var d := dayOf(ws[m].start);
    if e.day == d {
      if d in Keys(prev) {
        assert DayEntry(d, WindowsOf(prev, d)) in prev;
      } else {
        assert d !in Elems(Keys(prev));
        OnDayNone(ws[..m], dayOf, includeCounts, d);
      }
    }
  }

  /** Every stored window sits under the day of its own start. */
  lemma GroupByDayOwnDay(ws: seq<Window>, dayOf: int -> string, includeCounts: bool)
    ensures forall e, v :: e in GroupByDay(ws, dayOf, includeCounts) && v in e.windows ==> dayOf(v.start) == e.day
  {
    GroupByDayWindows(ws, dayOf, includeCounts);
    forall e, v | e in GroupByDay(ws, dayOf, includeCounts) && v in e.windows ensures dayOf(v.start) == e.day {
      OnDayStarts(ws, dayOf, includeCounts, e.day);
    }
  }

  /** The day keys of the windows' starts. */
  function DayKeys(ws: seq<Window>, dayOf: int -> string): set<string>
  {
    set w | w in ws :: dayOf(w.start)
  }

  lemma DayKeysSnoc(ws: seq<Window>, dayOf: int -> string)
    requires |ws| > 0
    ensures DayKeys(ws, dayOf) == DayKeys(ws[..|ws| - 1], dayOf) + {dayOf(ws[|ws| - 1].start)}
  {
    var m := |ws| - 1;
    assert ws == ws[..m] + [ws[m]];
    assert forall w :: w in ws <==> w in ws[..m] || w == ws[m];
  }

  /** The days are exactly the day keys of the windows' starts. */
  lemma {:induction false} GroupByDayKeys(ws: seq<Window>, dayOf: int -> string, includeCounts: bool)
    ensures Elems(Keys(GroupByDay(ws, dayOf, includeCounts))) == DayKeys(ws, dayOf)
  {
    if |ws| > 0 {
      GroupByDayKeys(ws[..|ws| - 1], dayOf, includeCounts);
      DayKeysSnoc(ws, dayOf);
    }
  }

  /** Grouping neither drops nor invents rows. */
  lemma {:induction false} GroupByDayRows(ws: seq<Window>, dayOf: int -> string, includeCounts: bool)
    ensures Sum(EntryRows, GroupByDay(ws, dayOf, includeCounts)) == if includeCounts then Sum(WindowRows, ws) else 0
  {
    if |ws| > 0 {
      var m := |ws| - 1;
      GroupByDayRows(ws[..m], dayOf, includeCounts);
      assert ws == ws[..m] + [ws[m]];
      SumAppend(WindowRows, ws[..m], [ws[m]]);
      assert Sum(WindowRows, [ws[m]]) == ws[m].rows;
    }
  }

  /** `bin_size`: daily buckets for "day", hourly ones otherwise. */
  function BinStep(binSize: string): (step: int)
    ensures step > 0
    ensures step == Day <==> binSize == "day"
    ensures binSize != "day" ==> step == 3600 * Second
  {
    if binSize == "day" then Day else 3600 * Second
  }

  /** `scan_data_availability(start, end, ...)` from the fetched pairs on. */
  function ScanDataAvailability(
    grouped: Interval -> Result<seq<Bucket>, string>,
    probe: Interval -> Result<bool, string>,
    binSize: string, start: int, end: int,
    dayOf: int -> string, includeCounts: bool): (r: ScanResult)
    ensures Valid(r)
  {
    var st := Store(grouped, probe, BinStep(binSize));
    var bins := FetchBins(st, start, end).pairs;
    if |bins| == 0 then ScanResult([])
    else ScanResult(GroupByDay(CompressBins(bins, st.step), dayOf, includeCounts))
  }

  /** `total_rows` is the total of the counts the store reported, or zero
      when counts were not requested. */
  lemma ScanTotalRows(
    grouped: Interval -> Result<seq<Bucket>, string>,
    probe: Interval -> Result<bool, string>,
    binSize: string, start: int, end: int,
    dayOf: int -> string, includeCounts: bool)
    ensures TotalRows(ScanDataAvailability(grouped, probe, binSize, start, end, dayOf, includeCounts))
      == if includeCounts then Sum(BucketCount, FetchBins(Store(grouped, probe, BinStep(binSize)), start, end).pairs) else 0
  {
    var st := Store(grouped, probe, BinStep(binSize));
    var bins := FetchBins(st, start, end).pairs;
    if |bins| > 0 {
      GroupByDayRows(CompressBins(bins, st.step), dayOf, includeCounts);
      CompressTotals(bins, st.step);
    }
  }

  /** There is one day per distinct day key of a window start, listed in
      ascending order. */
  lemma ScanDays(
    grouped: Interval -> Result<seq<Bucket>, string>,
    probe: Interval -> Result<bool, string>,
    binSize: string, start: int, end: int,
    dayOf: int -> string, includeCounts: bool)
    ensures
      var r := ScanDataAvailability(grouped, probe, binSize, start, end, dayOf, includeCounts);
      var st := Store(grouped, probe, BinStep(binSize));
      var ws := CompressBins(FetchBins(st, start, end).pairs, st.step);
      && StrictlyAscending(Days(r))
      && Elems(Days(r)) == DayKeys(ws, dayOf)
  {
    var st := Store(grouped, probe, BinStep(binSize));
    var bins := FetchBins(st, start, end).pairs;
    GroupByDayKeys(CompressBins(bins, st.step), dayOf, includeCounts);
  }
}

=== FILE: scanner.dfy ===
/** `_fetch_bins_adaptive`: the scanner's own range splitter. Narrow ranges
    are probed bucket by bucket; wider ones are asked for grouped counts and,
    on any exception at all, split at the midpoint. */
module Scanner {
  import opened Wrappers
  import opened TimeRanges
  import opened Windows
  import opened Quoting

  /** The store as the scanner sees it. `grouped` is `query_grouped_bins`
      (one bucket per non-empty step, or the exception's message); `probe`
      is the `SELECT 1 ... LIMIT 1` query, true when it returned a row;
      `step` is the bucket width. The `DATE_BIN` origin is the start of the
      range queried (src/slicks/scanner.py:435), so bucket starts are aligned to that
      range's own start, not to a fixed grid. The right half of a split
      31-day chunk starts at its midpoint, off the day grid, so the scanner
      does not guarantee the `OnGrid` precondition of
      `Windows.CompressSeparated`. */
  datatype Store = Store(
    grouped: Interval -> Result<seq<Bucket>, string>,
    probe: Interval -> Result<bool, string>,
    step: int)

  /** `scan_data_availability`'s table: `iox.<db>` unless one is given. */
  function ScanTableRef(db: string, table: Option<string>): (r: string)
    ensures table.None? ==> r == QuoteSchemaTable("iox", db)
    ensures table.Some? ==> r == QuoteTable(table.value)
  {
    var name := if table.None? then "iox." + db else table.value;
    if table.None? then
      assert name == "iox" + "." + db;
      QuotingAgrees("iox", db);
      QuoteTable(name)
    else
      QuoteTable(name)
  }

  // ---------------------------------------------------------------------
  // Per-bin probing

  /** The buckets `(lo, 1)` of the probed ranges whose probe found a row. */
  function Hits(probe: Interval -> Result<bool, string>, probes: seq<Interval>): (r: seq<Bucket>)
    ensures |r| <= |probes|
  {
    if |probes| == 0 then []
    else (if probe(probes[0]) == Success(true) then [Bucket(probes[0].lo, 1)] else []) + Hits(probe, probes[1..])
  }

  /** Buckets of count 1 at strictly increasing starts inside [t0, t1). */
  predicate ProbeBuckets(r: seq<Bucket>, t0: int, t1: int)
  {
    && (forall k :: 0 <= k < |r| ==> r[k].count == 1 && t0 <= r[k].start < t1)
    && StrictlyIncreasing(r)
  }

  /** `query_exists_per_bin(client, t0, t1)`: probe `[cur, min(cur + step, t1))`
      from `t0` until `t1`; an exception counts as "no row". */
  function ExistsPerBin(st: Store, t0: int, t1: int): (r: seq<Bucket>)
    requires st.step > 0
    ensures ProbeBuckets(r, t0, t1)
    decreases t1 - t0
  {
    if t0 >= t1 then []
    else
      var nxt := if t0 + st.step < t1 then t0 + st.step else t1;
      var here := if st.probe(Interval(t0, nxt)) == Success(true) then [Bucket(t0, 1)] else [];
      var rest := ExistsPerBin(st, nxt, t1);
      assert forall k :: 0 < k < |[Bucket(t0, 1)] + rest| ==> ([Bucket(t0, 1)] + rest)[k] == rest[k - 1];
      here + rest
  }

  /** The probes are exactly the chunks of width `step` covering [t0, t1),
      and a bucket is reported for each probe that found a row. */
  lemma {:induction false} ExistsPerBinProbes(st: Store, t0: int, t1: int)
    requires st.step > 0
    ensures ExistsPerBin(st, t0, t1) == Hits(st.probe, BuildChunks(t0, t1, st.step))
    decreases t1 - t0
  {
    if t0 < t1 {
      var nxt := if t0 + st.step < t1 then t0 + st.step else t1;
      var c := Interval(t0, nxt);
      ExistsPerBinStep(st, t0, t1);
      ExistsPerBinProbes(st, nxt, t1);
      var tail := BuildChunks(nxt, t1, st.step);
      BuildChunksStep(t0, t1, st.step);
      HitsCons(st.probe, c, tail);
    }
  }

  /** One probe, then the rest of the range. */
  lemma ExistsPerBinStep(st: Store, t0: int, t1: int)
    requires st.step > 0 && t0 < t1
    ensures var nxt := if t0 + st.step < t1 then t0 + st.step else t1;
      ExistsPerBin(st, t0, t1) ==
        (if st.probe(Interval(t0, nxt)) == Success(true) then [Bucket(t0, 1)] else []) + ExistsPerBin(st, nxt, t1)
  {
  }

  lemma HitsCons(probe: Interval -> Result<bool, string>, c: Interval, cs: seq<Interval>)
    ensures Hits(probe, [c] + cs) == (if probe(c) == Success(true) then [Bucket(c.lo, 1)] else []) + Hits(probe, cs)
  {
    assert ([c] + cs)[1..] == cs;
  }

  lemma {:induction false} HitsMembers(probe: Interval -> Result<bool, string>, probes: seq<Interval>, b: Bucket)
    ensures b in Hits(probe, probes) <==>
      b.count == 1 && exists i :: 0 <= i < |probes| && probes[i].lo == b.start && probe(probes[i]) == Success(true)
  {
    if |probes| > 0 {
      HitsMembers(probe, probes[1..], b);
      if b.count == 1 && exists i :: 0 <= i < |probes| && probes[i].lo == b.start && probe(probes[i]) == Success(true) {
        var i :| 0 <= i < |probes| && probes[i].lo == b.start && probe(probes[i]) == Success(true);
        if i > 0 {
          assert probes[1..][i - 1] == probes[i];
        }
      }
      if b in Hits(probe, probes[1..]) {
        var i :| 0 <= i < |probes[1..]| && probes[1..][i].lo == b.start && probe(probes[1..][i]) == Success(true);
        assert probes[i + 1] == probes[1..][i];
      }
    }
  }

  /** A bucket is reported exactly when some probe starting at its start
      found a row; probe exceptions report nothing and are not raised. */
  lemma ExistsPerBinExactly(st: Store, t0: int, t1: int, b: Bucket)
    requires st.step > 0
    ensures b in ExistsPerBin(st, t0, t1) <==>
      var probes := BuildChunks(t0, t1, st.step);
      b.count == 1 && exists i :: 0 <= i < |probes| && probes[i].lo == b.start && st.probe(probes[i]) == Success(true)
  {
    ExistsPerBinProbes(st, t0, t1);
    HitsMembers(st.probe, BuildChunks(t0, t1, st.step), b);
  }

  // ---------------------------------------------------------------------
  // process_range

  /** A piece of the range answered without further splitting: by the
      grouped query, or by probing each bucket. */
  datatype Piece = Grouped(span: Interval) | Probed(span: Interval)

  /** Pairs in the order they are yielded, every grouped query issued, and
      the pieces the pairs came from. */
  datatype Scan = Scan(pairs: seq<Bucket>, groupedCalls: seq<Interval>, pieces: seq<Piece>)

  function PieceSpans(pieces: seq<Piece>): (spans: seq<Interval>)
    ensures |spans| == |pieces|
    ensures forall i :: 0 <= i < |pieces| ==> spans[i] == pieces[i].span
  {
    if |pieces| == 0 then [] else [pieces[0].span] + PieceSpans(pieces[1..])
  }

  lemma {:induction false} PieceSpansAppend(a: seq<Piece>, b: seq<Piece>)
    ensures PieceSpans(a + b) == PieceSpans(a) + PieceSpans(b)
  {
    if |a| == 0 {
      assert a + b == b;
    } else {
      assert (a + b)[1..] == a[1..] + b;
      PieceSpansAppend(a[1..], b);
    }
  }

  /** The pairs a piece yields. */
  function PiecePairs(st: Store, p: Piece): seq<Bucket>
    requires st.step > 0
  {
    match p
    case Grouped(span) => (match st.grouped(span) case Success(rows) => rows case Failure(_) => [])
    case Probed(span) => ExistsPerBin(st, span.lo, span.hi)
  }

  function GatherPieces(st: Store, pieces: seq<Piece>): seq<Bucket>
    requires st.step > 0
  {
    if |pieces| == 0 then [] else PiecePairs(st, pieces[0]) + GatherPieces(st, pieces[1..])
  }

  lemma {:induction false} GatherPiecesAppend(st: Store, a: seq<Piece>, b: seq<Piece>)
    requires st.step > 0
    ensures GatherPieces(st, a + b) == GatherPieces(st, a) + GatherPieces(st, b)
  {
    if |a| == 0 {
      assert a + b == b;
    } else {
      assert (a + b)[1..] == a[1..] + b;
      GatherPiecesAppend(st, a[1..], b);
    }
  }

  /** `min_exists_span = step * 4`. */
  function ProbeSpan(st: Store): int { 4 * st.step }

  /** Every grouped query lies inside [t0, t1) and is wider than four steps. */
  predicate CallsInside(st: Store, t0: int, t1: int, calls: seq<Interval>)
  {
    forall c :: c in calls ==> Within(c, t0, t1) && c.Width() > ProbeSpan(st)
  }

  /** Every piece lies inside [t0, t1); a grouped piece is one whose grouped
      query was issued and succeeded; a probed piece is at most four steps
      wide unless its midpoint was degenerate. */
  predicate PiecesHonest(st: Store, t0: int, t1: int, pieces: seq<Piece>, calls: seq<Interval>)
  {
    forall p :: p in pieces ==>
      && Within(p.span, t0, t1)
      && (p.Grouped? ==> st.grouped(p.span).Success? && p.span in calls)
      && (p.Probed? ==> p.span.Width() <= ProbeSpan(st) || !(p.span.lo < Midpoint(p.span.lo, p.span.hi) < p.span.hi))
  }

  /** What every scan of [t0, t1) promises: the two predicates above, the
      pieces tile [t0, t1) in order, and the pairs are theirs, left to right. */
  predicate ScanSound(st: Store, t0: int, t1: int, s: Scan)
    requires st.step > 0
  {
    && CallsInside(st, t0, t1, s.groupedCalls)
    && PiecesHonest(st, t0, t1, s.pieces, s.groupedCalls)
    && Tiles(PieceSpans(s.pieces), t0, t1)
    && s.pairs == GatherPieces(st, s.pieces)
  }

  /** Two scans of adjacent ranges, run one after the other after `extra`
      grouped queries over the whole range. */
  function Concat(extra: seq<Interval>, a: Scan, b: Scan): Scan
  {
    Scan(a.pairs + b.pairs, extra + a.groupedCalls + b.groupedCalls, a.pieces + b.pieces)
  }

  lemma ConcatNothing(a: Scan)
    ensures Concat([], a, Scan([], [], [])) == a
  {
    assert a.pairs + [] == a.pairs && a.groupedCalls + [] == a.groupedCalls && a.pieces + [] == a.pieces;
  }

  lemma ConcatCalls(st: Store, lo: int, mid: int, hi: int, extra: seq<Interval>, a: seq<Interval>, b: seq<Interval>)
    requires lo <= mid <= hi
    requires CallsInside(st, lo, hi, extra) && CallsInside(st, lo, mid, a) && CallsInside(st, mid, hi, b)
    ensures CallsInside(st, lo, hi, extra + a + b)
  {
    assert forall c :: c in extra + a + b ==> c in extra || c in a || c in b;
  }

  lemma ConcatPieces(st: Store, lo: int, mid: int, hi: int, calls: seq<Interval>, a: Scan, b: Scan)
    requires lo <= mid <= hi
    requires PiecesHonest(st, lo, mid, a.pieces, a.groupedCalls) && PiecesHonest(st, mid, hi, b.pieces, b.groupedCalls)
    requires forall c :: c in a.groupedCalls || c in b.groupedCalls ==> c in calls
    ensures PiecesHonest(st, lo, hi, a.pieces + b.pieces, calls)
  {
    assert forall p :: p in a.pieces + b.pieces ==> p in a.pieces || p in b.pieces;
  }

  lemma ConcatSound(st: Store, lo: int, mid: int, hi: int, extra: seq<Interval>, a: Scan, b: Scan)
    requires st.step > 0 && lo <= mid <= hi && CallsInside(st, lo, hi, extra)
    requires ScanSound(st, lo, mid, a) && ScanSound(st, mid, hi, b)
    ensures ScanSound(st, lo, hi, Concat(extra, a, b))
  {
    var s := Concat(extra, a, b);
    ConcatCalls(st, lo, mid, hi, extra, a.groupedCalls, b.groupedCalls);
    ConcatPieces(st, lo, mid, hi, s.groupedCalls, a, b);
    PieceSpansAppend(a.pieces, b.pieces);
    TilesAppend(PieceSpans(a.pieces), PieceSpans(b.pieces), lo, mid, hi);
    GatherPiecesAppend(st, a.pieces, b.pieces);
  }

  /** `process_range(client, t0, t1, chunk_days)`; `chunk_days` only halves
      along the recursion and decides nothing. No exception escapes: every
      grouped failure is answered by splitting or probing. */
  function ProcessRange(st: Store, t0: int, t1: int): (s: Scan)
    requires st.step > 0
    ensures ScanSound(st, t0, t1, s)
    decreases t1 - t0
  {
    var span := Interval(t0, t1);
    if t1 - t0 <= ProbeSpan(st) then OnePiece(st, Probed(span), false)
    else
      match st.grouped(span)
      case Success(_) => OnePiece(st, Grouped(span), true)
      case Failure(_) =>
        var mid := Midpoint(t0, t1);
        if mid <= t0 || mid >= t1 then OnePiece(st, Probed(span), true)
        else
          var left := ProcessRange(st, t0, mid);
          var right := ProcessRange(st, mid, t1);
          ConcatSound(st, t0, mid, t1, [span], left, right);
          Concat([span], left, right)
  }

  /** A range answered by one piece, after the grouped query over it was
      issued or not. */
  function OnePiece(st: Store, p: Piece, issued: bool): (s: Scan)
    requires st.step > 0
    requires issued ==> p.span.Width() > ProbeSpan(st)
    requires p.Grouped? ==> issued && st.grouped(p.span).Success?
    requires p.Probed? ==> p.span.Width() <= ProbeSpan(st) || !(p.span.lo < Midpoint(p.span.lo, p.span.hi) < p.span.hi)
    ensures ScanSound(st, p.span.lo, p.span.hi, s)
  {
    assert GatherPieces(st, [p]) == PiecePairs(st, p) + GatherPieces(st, []);
    Scan(PiecePairs(st, p), if issued then [p.span] else [], [p])
  }

  /** A range of at most four steps is probed bucket by bucket and the
      grouped query is never issued. */
  lemma NarrowRangeProbes(st: Store, t0: int, t1: int)
    requires st.step > 0 && t1 - t0 <= ProbeSpan(st)
    ensures ProcessRange(st, t0, t1) == Scan(ExistsPerBin(st, t0, t1), [], [Probed(Interval(t0, t1))])
  {
  }

  /** A wider range whose grouped query succeeds yields exactly its rows. */
  lemma GroupedSuccessPassesThrough(st: Store, t0: int, t1: int)
    requires st.step > 0 && t1 - t0 > ProbeSpan(st)
    requires st.grouped(Interval(t0, t1)).Success?
    ensures ProcessRange(st, t0, t1).pairs == st.grouped(Interval(t0, t1)).value
    ensures ProcessRange(st, t0, t1).groupedCalls == [Interval(t0, t1)]
  {
  }

  /** Any grouped failure, whatever its message, splits the range at the
      midpoint: left half first, then right half. */
  lemma AnyFailureSplits(st: Store, t0: int, t1: int)
    requires st.step > 0 && t1 - t0 > ProbeSpan(st)
    requires st.grouped(Interval(t0, t1)).Failure?
    ensures
      var mid := Midpoint(t0, t1);
      && t0 < mid < t1
      && ProcessRange(st, t0, t1).pairs == ProcessRange(st, t0, mid).pairs + ProcessRange(st, mid, t1).pairs
  {
    MidpointInside(t0, t1);
  }

  /** With a positive step the midpoint of a range wider than four steps is
      always strictly inside it, so the degenerate-midpoint branch is never
      taken: every probed piece is at most four steps wide. */
  lemma ProbedPiecesNarrow(st: Store, t0: int, t1: int)
    requires st.step > 0
    ensures forall p :: p in ProcessRange(st, t0, t1).pieces && p.Probed? ==> p.span.Width() <= ProbeSpan(st)
  {
    forall p | p in ProcessRange(st, t0, t1).pieces && p.Probed?
      ensures p.span.Width() <= ProbeSpan(st)
    {
      MidpointInside(p.span.lo, p.span.hi);
    }
  }

  // ---------------------------------------------------------------------
  // The outer loop over 31-day chunks

  const InitialChunkDays: int := 31

  /** `span` lies inside one of `chunks`. */
  predicate InSomeChunk(span: Interval, chunks: seq<Interval>)
  {
    exists k :: 0 <= k < |chunks| && Within(span, chunks[k].lo, chunks[k].hi)
  }

  /** No piece and no grouped query of `s` crosses a chunk boundary. */
  predicate ChunkBounded(chunks: seq<Interval>, s: Scan)
  {
    && (forall p :: p in s.pieces ==> InSomeChunk(p.span, chunks))
    && (forall c :: c in s.groupedCalls ==> InSomeChunk(c, chunks))
  }

  /** `process_range` over each chunk in turn, the pairs in chunk order:
      every piece and every grouped query stays inside one chunk. */
  function FetchChunks(st: Store, chunks: seq<Interval>): (s: Scan)
    requires st.step > 0
    ensures ChunkBounded(chunks, s)
  {
    if |chunks| == 0 then Scan([], [], [])
    else
      var first := ProcessRange(st, chunks[0].lo, chunks[0].hi);
      var rest := FetchChunks(st, chunks[1..]);
      ChunkBoundedCons(st, chunks, first, rest);
      Concat([], first, rest)
  }

  /** The first chunk's scan and the scan of the others stay inside the chunks. */
  lemma ChunkBoundedCons(st: Store, chunks: seq<Interval>, first: Scan, rest: Scan)
    requires st.step > 0 && |chunks| > 0
    requires ScanSound(st, chunks[0].lo, chunks[0].hi, first) && ChunkBounded(chunks[1..], rest)
    ensures ChunkBounded(chunks, Concat([], first, rest))
  {
    var s := Concat([], first, rest);
    forall sp | InSomeChunk(sp, chunks[1..]) ensures InSomeChunk(sp, chunks) {
      var k :| 0 <= k < |chunks[1..]| && Within(sp, chunks[1..][k].lo, chunks[1..][k].hi);
      assert chunks[k + 1] == chunks[1..][k];
    }
    forall p | p in s.pieces ensures InSomeChunk(p.span, chunks) {
      if p in first.pieces {
        assert Within(p.span, chunks[0].lo, chunks[0].hi);
      } else {
        assert p in rest.pieces;
      }
    }
    forall c | c in s.groupedCalls ensures InSomeChunk(c, chunks) {
      assert s.groupedCalls == [] + first.groupedCalls + rest.groupedCalls;
      if c in first.groupedCalls {
        assert Within(c, chunks[0].lo, chunks[0].hi);
      } else {
        assert c in rest.groupedCalls;
      }
    }
  }

  /** Processing tiled chunks in order keeps every promise of a single range
      over their union. */
  lemma {:induction false} FetchChunksSound(st: Store, chunks: seq<Interval>, lo: int, hi: int)
    requires st.step > 0 && Tiles(chunks, lo, hi) && NonEmptySpans(chunks)
    ensures ScanSound(st, lo, hi, FetchChunks(st, chunks))
    decreases |chunks|
  {
    var first := ProcessRange(st, chunks[0].lo, chunks[0].hi);
    if |chunks| == 1 {
      ConcatNothing(first);
    } else {
      TilesTail(chunks, lo, hi);
      TilesOrdered(chunks[1..], chunks[1].lo, hi);
      FetchChunksSound(st, chunks[1..], chunks[1].lo, hi);
      ConcatSound(st, lo, chunks[1].lo, hi, [], first, FetchChunks(st, chunks[1..]));
    }
  }

  /** `_fetch_bins_adaptive(start, end, ...)`: consecutive 31-day chunks from
      `start`, the last clipped to `end`; nothing when `start >= end`. */
  function FetchBins(st: Store, start: int, end: int): (s: Scan)
    requires st.step > 0
    ensures start >= end ==> s == Scan([], [], [])
    ensures start < end ==> ScanSound(st, start, end, s)
    ensures ChunkBounded(BuildChunks(start, end, InitialChunkDays * Day), s)
  {
    var chunks := BuildChunks(start, end, InitialChunkDays * Day);
    if |chunks| == 0 then Scan([], [], [])
    else
      FetchChunksSound(st, chunks, start, end);
      FetchChunks(st, chunks)
  }
}

=== FILE: seqs.dfy ===
/** Small facts about sequences shared by the other modules. */
module Seqs {

  /** The sum of `f` over the elements of `s`, front to back. */
  function Sum<X>(f: X -> int, s: seq<X>): int
  {
    if |s| == 0 then 0 else f(s[0]) + Sum(f, s[1..])
  }

  /** The set of elements of `s`. */
  function Elems<X>(s: seq<X>): set<X>
  {
    set x | x in s
  }

  lemma ElemsCons<X>(x: X, s: seq<X>)
    ensures Elems([x] + s) == {x} + Elems(s)
  {
    assert forall y :: y in [x] + s <==> y == x || y in s;
  }

  /** Every element of `s` occurs exactly once. */
  predicate Distinct<X(==)>(s: seq<X>)
  {
    forall i, j :: 0 <= i < j < |s| ==> s[i] != s[j]
  }

  /** `s` without its element at position `k`. */
  function RemoveAt<X>(s: seq<X>, k: nat): (r: seq<X>)
    requires k < |s|
    ensures |r| == |s| - 1
    ensures forall i :: 0 <= i < |r| ==> r[i] == if i < k then s[i] else s[i + 1]
  {
    s[..k] + s[k + 1..]
  }

  lemma {:induction false} SumAppend<X>(f: X -> int, a: seq<X>, b: seq<X>)
    ensures Sum(f, a + b) == Sum(f, a) + Sum(f, b)
  {
    if |a| == 0 {
      assert a + b == b;
    } else {
      assert (a + b)[1..] == a[1..] + b;
      SumAppend(f, a[1..], b);
    }
  }

  lemma SumRemoveAt<X>(f: X -> int, s: seq<X>, k: nat)
    requires k < |s|
    ensures Sum(f, s) == f(s[k]) + Sum(f, RemoveAt(s, k))
  {
    assert s == s[..k] + ([s[k]] + s[k + 1..]);
    SumAppend(f, s[..k], [s[k]] + s[k + 1..]);
    SumAppend(f, [s[k]], s[k + 1..]);
    SumAppend(f, s[..k], s[k + 1..]);
    assert Sum(f, [s[k]]) == f(s[k]);
  }

  lemma MultisetSplitAt<X>(s: seq<X>, k: nat)
    requires k < |s|
    ensures multiset(s) == multiset(RemoveAt(s, k)) + multiset{s[k]}
  {
    assert s == s[..k] + [s[k]] + s[k + 1..];
  }

  lemma MultisetRemoveAt<X>(s: seq<X>, k: nat)
    requires k < |s|
    ensures multiset(RemoveAt(s, k)) == multiset(s) - multiset{s[k]}
  {
    MultisetSplitAt(s, k);
  }

  /** A position of `s` holding `x`. */
  lemma PositionIn<X>(s: seq<X>, x: X) returns (k: nat)
    requires x in s
    ensures k < |s| && s[k] == x
  {
    k :| 0 <= k < |s| && s[k] == x;
  }

  /** Matching the head of `a` with position `k` of a permutation `b` leaves
      permutations of each other. */
  lemma PermutationRest<X>(a: seq<X>, b: seq<X>, k: nat)
    requires multiset(a) == multiset(b) && 0 < |a| && k < |b| && b[k] == a[0]
    ensures multiset(a[1..]) == multiset(RemoveAt(b, k))
  {
    assert RemoveAt(a, 0) == a[1..];
    MultisetRemoveAt(a, 0);
    MultisetRemoveAt(b, k);
  }

  /** A sum does not depend on the order of the summands. */
  lemma {:induction false} SumPermutation<X>(f: X -> int, a: seq<X>, b: seq<X>)
    requires multiset(a) == multiset(b)
    ensures Sum(f, a) == Sum(f, b)
    decreases |a|
  {
    if |a| == 0 {
      assert |b| == |multiset(b)| == 0;
    } else {
      assert a[0] in multiset(b);
      var k := PositionIn(b, a[0]);
      PermutationRest(a, b, k);
      SumPermutation(f, a[1..], RemoveAt(b, k));
      SumRemoveAt(f, b, k);
    }
  }

  lemma ElemsRemoveAt<X>(s: seq<X>, k: nat)
    requires k < |s| && Distinct(s)
    ensures Distinct(RemoveAt(s, k))
    ensures Elems(RemoveAt(s, k)) == Elems(s) - {s[k]}
  {
    var r := RemoveAt(s, k);
    forall x ensures x in Elems(r) <==> x in Elems(s) && x != s[k] {
      if x in Elems(s) && x != s[k] {
        var i :| 0 <= i < |s| && s[i] == x;
        assert r[if i < k then i else i - 1] == x;
      }
    }
  }

  /** A duplicate-free sequence has as many elements as its element set. */
  lemma {:induction false} DistinctCardinality<X>(s: seq<X>)
    requires Distinct(s)
    ensures |Elems(s)| == |s|
  {
    if |s| > 0 {
      ElemsRemoveAt(s, 0);
      assert RemoveAt(s, 0) == s[1..];
      DistinctCardinality(s[1..]);
    }
  }

  /** Two duplicate-free sequences with the same elements are permutations of each other. */
  lemma {:induction false} DistinctSameElements<X>(a: seq<X>, b: seq<X>)
    requires Distinct(a) && Distinct(b)
    requires Elems(a) == Elems(b)
    ensures multiset(a) == multiset(b)
    decreases |a|
  {
    if |a| == 0 {
      DistinctCardinality(b);
    } else {
      assert a[0] in Elems(a);
      var k := PositionIn(b, a[0]);
      ElemsRemoveAt(a, 0);
      ElemsRemoveAt(b, k);
      assert RemoveAt(a, 0) == a[1..];
      DistinctSameElements(a[1..], RemoveAt(b, k));
      MultisetSplitAt(a, 0);
      MultisetSplitAt(b, k);
    }
  }

  /** In a duplicate-free sequence each element occurs exactly once. */
  lemma {:induction false} DistinctCount<X>(s: seq<X>, x: X)
    requires Distinct(s)
    ensures multiset(s)[x] == if x in s then 1 else 0
  {
    if |s| > 0 {
      assert s == [s[0]] + s[1..];
      DistinctCount(s[1..], x);
      if x == s[0] {
        assert x !in s[1..];
      }
    }
  }
}

=== FILE: splitter.dfy ===
/** `adaptive_query`: run a query over [t0, t1) and, on a recoverable failure,
    split the range at its midpoint and retry each half. */
module Splitter {
  import opened Wrappers
  import opened TimeRanges
  import opened Classifier

  /** How a piece of the range was finally answered. */
  datatype Source = FromPrimary | FromFallback | Dropped

  /** A piece of the range that was answered without further splitting. */
  datatype Leaf = Leaf(span: Interval, depth: int, source: Source)

  /** One call of the primary query, with the recursion depth it was made at. */
  datatype Call = Call(span: Interval, depth: int)

  /** The outcome of one call together with its trace: every primary call
      made, in order, and the pieces the answer was assembled from. */
  datatype Answer<T> = Answer(
    rows: Result<seq<T>, PermanentQueryError>,
    primaryCalls: seq<Call>,
    leaves: seq<Leaf>)

  /** The arguments of `adaptive_query` that stay fixed through the recursion.
      `primary` is the query (a failure carries the exception's message);
      `minSpan` is in microseconds. */
  datatype Query<T> = Query(
    primary: Interval -> Result<seq<T>, string>,
    fallback: Option<Interval -> seq<T>>,
    minSpan: Option<int>,
    maxDepth: int)
  {
    /** `min_span and (t1 - t0) <= min_span`: a zero `min_span` is falsy in
        Python, so it sets no floor. */
    predicate BelowSpanFloor(span: Interval)
    {
      minSpan.Some? && minSpan.value != 0 && span.Width() <= minSpan.value
    }

    /** What a floor answers: the fallback's rows if there is a fallback, else nothing. */
    function FloorRows(span: Interval): seq<T>
    {
      if fallback.Some? then fallback.value(span) else []
    }

    function FloorSource(): Source
    {
      if fallback.Some? then FromFallback else Dropped
    }

    /** A leaf is answered the way its source says. */
    predicate Honest(leaf: Leaf)
    {
      && (leaf.source == FromPrimary ==> primary(leaf.span).Success?)
      && (leaf.source != FromPrimary ==> leaf.source == FloorSource())
    }

    /** The rows a leaf contributes. */
    function LeafRows(leaf: Leaf): seq<T>
    {
      match leaf.source
      case FromPrimary => (match primary(leaf.span) case Success(v) => v case Failure(_) => [])
      case FromFallback => FloorRows(leaf.span)
      case Dropped => []
    }

    /** The rows of `leaves`, concatenated in order. */
    function Gather(leaves: seq<Leaf>): seq<T>
    {
      if |leaves| == 0 then [] else LeafRows(leaves[0]) + Gather(leaves[1..])
    }
  }

  function Spans(leaves: seq<Leaf>): (spans: seq<Interval>)
    ensures |spans| == |leaves|
    ensures forall i :: 0 <= i < |leaves| ==> spans[i] == leaves[i].span
  {
    if |leaves| == 0 then [] else [leaves[0].span] + Spans(leaves[1..])
  }

  lemma {:induction false} GatherAppend<T>(q: Query<T>, a: seq<Leaf>, b: seq<Leaf>)
    ensures q.Gather(a + b) == q.Gather(a) + q.Gather(b)
  {
    if |a| == 0 {
      assert a + b == b;
    } else {
      assert (a + b)[1..] == a[1..] + b;
      GatherAppend(q, a[1..], b);
    }
  }

  lemma SpansAppend(a: seq<Leaf>, b: seq<Leaf>)
    ensures Spans(a + b) == Spans(a) + Spans(b)
  {
  }

  /** Every primary call lies inside [t0, t1), happens no shallower than
      `depth` and no deeper than `maxDepth`, on a range above the span floor. */
  predicate CallsWithin<T>(q: Query<T>, t0: int, t1: int, depth: int, calls: seq<Call>)
  {
    forall c :: c in calls ==> Within(c.span, t0, t1) && depth <= c.depth <= q.maxDepth && !q.BelowSpanFloor(c.span)
  }

  /** Every leaf lies inside [t0, t1), no shallower than `depth` and, unless
      it is at `depth` itself, no deeper than one level below `maxDepth`, and
      was answered the way its source says. */
  predicate LeavesWithin<T>(q: Query<T>, t0: int, t1: int, depth: int, leaves: seq<Leaf>)
  {
    forall l :: l in leaves ==>
      Within(l.span, t0, t1) && depth <= l.depth && (l.depth <= q.maxDepth + 1 || l.depth == depth) && q.Honest(l)
  }

  /** A primary result that is a permanent failure. */
  predicate Permanent<T>(r: Result<seq<T>, string>)
  {
    r.Failure? && IsPermanentError(r.error)
  }

  /** No call in `calls` raised a permanent error. */
  predicate NoPermanentCall<T>(q: Query<T>, calls: seq<Call>)
  {
    forall c :: c in calls ==> !Permanent(q.primary(c.span))
  }

  /** Above both floors the first primary call is over the whole range. */
  predicate StartsWithWhole<T>(q: Query<T>, t0: int, t1: int, depth: int, calls: seq<Call>)
  {
    !q.BelowSpanFloor(Interval(t0, t1)) && depth <= q.maxDepth ==>
      |calls| > 0 && calls[0] == Call(Interval(t0, t1), depth)
  }

  /** What every answer of `Adaptive(q, t0, t1, depth)` promises: the two
      predicates above; above both floors the primary is asked about the
      whole range first; on success no primary call raised a permanent
      error, the leaves tile [t0, t1) in order and the rows are their rows
      concatenated left to right; a failure is always a permanent one that
      some primary call actually raised. */
  ghost predicate Sound<T>(q: Query<T>, t0: int, t1: int, depth: int, a: Answer<T>)
  {
    && CallsWithin(q, t0, t1, depth, a.primaryCalls)
    && LeavesWithin(q, t0, t1, depth, a.leaves)
    && StartsWithWhole(q, t0, t1, depth, a.primaryCalls)
    && (a.rows.Success? ==> NoPermanentCall(q, a.primaryCalls))
    && (a.rows.Success? ==> Tiles(Spans(a.leaves), t0, t1) && a.rows.value == q.Gather(a.leaves))
    && (a.rows.Failure? ==>
          && IsPermanentError(a.rows.error.message)
          && exists c :: c in a.primaryCalls && q.primary(c.span) == Failure(a.rows.error.message))
  }

  /** The calls of both halves, after the call over the whole range. */
  lemma CallsJoin<T>(q: Query<T>, t0: int, mid: int, t1: int, depth: int, a: seq<Call>, b: seq<Call>)
    requires t0 <= mid <= t1 && depth <= q.maxDepth && !q.BelowSpanFloor(Interval(t0, t1))
    requires CallsWithin(q, t0, mid, depth + 1, a) && CallsWithin(q, mid, t1, depth + 1, b)
    ensures CallsWithin(q, t0, t1, depth, [Call(Interval(t0, t1), depth)] + a + b)
  {
    assert forall c :: c in [Call(Interval(t0, t1), depth)] + a + b ==> c == Call(Interval(t0, t1), depth) || c in a || c in b;
  }

  /** A recoverable call followed by calls that raised nothing permanent. */
  lemma NoPermanentJoin<T>(q: Query<T>, call: Call, a: seq<Call>, b: seq<Call>)
    requires Recoverable(q.primary(call.span)) && NoPermanentCall(q, a) && NoPermanentCall(q, b)
    ensures NoPermanentCall(q, [call] + a + b)
  {
    assert forall c :: c in [call] + a + b ==> c == call || c in a || c in b;
  }

  /** The leaves of both halves. */
  lemma LeavesJoin<T>(q: Query<T>, t0: int, mid: int, t1: int, depth: int, a: seq<Leaf>, b: seq<Leaf>)
    requires t0 <= mid <= t1 && depth <= q.maxDepth
    requires LeavesWithin(q, t0, mid, depth + 1, a) && LeavesWithin(q, mid, t1, depth + 1, b)
    ensures LeavesWithin(q, t0, t1, depth, a + b)
  {
    assert forall l :: l in a + b ==> l in a || l in b;
  }

  /** A left half that failed ends the split with its failure. */
  lemma LeftFailureSound<T>(q: Query<T>, t0: int, mid: int, t1: int, depth: int, left: Answer<T>)
    requires t0 < mid < t1 && depth <= q.maxDepth && !q.BelowSpanFloor(Interval(t0, t1))
    requires Sound(q, t0, mid, depth + 1, left) && left.rows.Failure?
    ensures Sound(q, t0, t1, depth, Answer(left.rows, [Call(Interval(t0, t1), depth)] + left.primaryCalls, left.leaves))
  {
    CallsJoin(q, t0, mid, t1, depth, left.primaryCalls, []);
    assert [Call(Interval(t0, t1), depth)] + left.primaryCalls + [] == [Call(Interval(t0, t1), depth)] + left.primaryCalls;
    LeavesJoin(q, t0, mid, t1, depth, left.leaves, []);
    assert left.leaves + [] == left.leaves;
    var c :| c in left.primaryCalls && q.primary(c.span) == Failure(left.rows.error.message);
    assert c in [Call(Interval(t0, t1), depth)] + left.primaryCalls;
    assert ([Call(Interval(t0, t1), depth)] + left.primaryCalls)[0] == Call(Interval(t0, t1), depth);
  }

  /** The answer assembled from both halves keeps the promises the halves keep. */
  lemma JoinedSound<T>(q: Query<T>, t0: int, mid: int, t1: int, depth: int, left: Answer<T>, right: Answer<T>)
    requires t0 < mid < t1 && depth <= q.maxDepth && !q.BelowSpanFloor(Interval(t0, t1))
    requires Sound(q, t0, mid, depth + 1, left) && Sound(q, mid, t1, depth + 1, right)
    requires left.rows.Success? && Recoverable(q.primary(Interval(t0, t1)))
    ensures Sound(q, t0, t1, depth, Joined(Call(Interval(t0, t1), depth), left, right))
  {
    var call := Call(Interval(t0, t1), depth);
    var a := Joined(call, left, right);
    CallsJoin(q, t0, mid, t1, depth, left.primaryCalls, right.primaryCalls);
    LeavesJoin(q, t0, mid, t1, depth, left.leaves, right.leaves);
    assert a.primaryCalls[0] == call;
    if right.rows.Success? {
      NoPermanentJoin(q, call, left.primaryCalls, right.primaryCalls);
      SpansAppend(left.leaves, right.leaves);
      TilesAppend(Spans(left.leaves), Spans(right.leaves), t0, mid, t1);
      GatherAppend(q, left.leaves, right.leaves);
    } else {
      var c :| c in right.primaryCalls && q.primary(c.span) == Failure(right.rows.error.message);
      assert c in a.primaryCalls;
    }
  }

  /** The answer after both halves ran: the right half's failure, or both
      halves' rows left then right. */
  function Joined<T>(call: Call, left: Answer<T>, right: Answer<T>): Answer<T>
    requires left.rows.Success?
  {
    Answer(
      if right.rows.Failure? then right.rows else Success(left.rows.value + right.rows.value),
      [call] + left.primaryCalls + right.primaryCalls,
      left.leaves + right.leaves)
  }

  /** `adaptive_query(client, t0, t1, primary, fallback, min_span, max_depth, depth)`. */
  function Adaptive<T>(q: Query<T>, t0: int, t1: int, depth: int): (a: Answer<T>)
    ensures Sound(q, t0, t1, depth, a)
    decreases t1 - t0
  {
    var span := Interval(t0, t1);
    var floor := Answer(Success(q.FloorRows(span)), [], [Leaf(span, depth, q.FloorSource())]);
    if q.BelowSpanFloor(span) then floor
    else if depth > q.maxDepth then floor
    else
      var call := Call(span, depth);
      match q.primary(span)
      case Success(rows) => Answer(Success(rows), [call], [Leaf(span, depth, FromPrimary)])
      case Failure(message) =>
        if IsPermanentError(message) then
          Answer(Failure(PermanentQueryError(message)), [call], [])
        else
          var mid := Midpoint(t0, t1);
          if mid <= t0 || mid >= t1 then
            Answer(Success(q.FloorRows(span)), [call], [Leaf(span, depth, q.FloorSource())])
          else
            var left := Adaptive(q, t0, mid, depth + 1);
            if left.rows.Failure? then
              LeftFailureSound(q, t0, mid, t1, depth, left);
              Answer(left.rows, [call] + left.primaryCalls, left.leaves)
            else
              var right := Adaptive(q, mid, t1, depth + 1);
              JoinedSound(q, t0, mid, t1, depth, left, right);
              Joined(call, left, right)
  }

  /** A primary result that is not a permanent failure. */
  predicate Recoverable<T>(r: Result<seq<T>, string>)
  {
    r.Failure? && !IsPermanentError(r.error)
  }

  /** At or below a non-zero span floor the primary is never called: the
      answer is the fallback's, or nothing. */
  lemma SpanFloorSkipsPrimary<T>(q: Query<T>, t0: int, t1: int, depth: int)
    requires q.BelowSpanFloor(Interval(t0, t1))
    ensures Adaptive(q, t0, t1, depth).primaryCalls == []
    ensures Adaptive(q, t0, t1, depth).rows == Success(q.FloorRows(Interval(t0, t1)))
  {
  }

  /** Deeper than `maxDepth` the primary is never called either. */
  lemma DepthFloorSkipsPrimary<T>(q: Query<T>, t0: int, t1: int, depth: int)
    requires depth > q.maxDepth
    ensures Adaptive(q, t0, t1, depth).primaryCalls == []
    ensures Adaptive(q, t0, t1, depth).rows == Success(q.FloorRows(Interval(t0, t1)))
  {
  }

  /** Above both floors, a primary success is the answer, after exactly one call. */
  lemma PrimarySuccessPassesThrough<T>(q: Query<T>, t0: int, t1: int, depth: int)
    requires !q.BelowSpanFloor(Interval(t0, t1)) && depth <= q.maxDepth
    requires q.primary(Interval(t0, t1)).Success?
    ensures Adaptive(q, t0, t1, depth).rows == Success(q.primary(Interval(t0, t1)).value)
    ensures Adaptive(q, t0, t1, depth).primaryCalls == [Call(Interval(t0, t1), depth)]
  {
  }

  /** A permanent failure is raised with the same message: one call, no
      split, and the fallback is not consulted. */
  lemma PermanentFailureAborts<T>(q: Query<T>, t0: int, t1: int, depth: int)
    requires !q.BelowSpanFloor(Interval(t0, t1)) && depth <= q.maxDepth
    requires q.primary(Interval(t0, t1)).Failure? && IsPermanentError(q.primary(Interval(t0, t1)).error)
    ensures Adaptive(q, t0, t1, depth).rows == Failure(PermanentQueryError(q.primary(Interval(t0, t1)).error))
    ensures |Adaptive(q, t0, t1, depth).primaryCalls| == 1
    ensures Adaptive(q, t0, t1, depth).leaves == []
  {
  }

  /** A recoverable failure on a range narrower than two microseconds,
      empty and inverted ranges included, cannot be split: the answer is the
      floor's. */
  lemma DegenerateSplitFallsBack<T>(q: Query<T>, t0: int, t1: int, depth: int)
    requires t1 - t0 < 2
    requires !q.BelowSpanFloor(Interval(t0, t1)) && depth <= q.maxDepth
    requires Recoverable(q.primary(Interval(t0, t1)))
    ensures Adaptive(q, t0, t1, depth).rows == Success(q.FloorRows(Interval(t0, t1)))
  {
    MidpointInside(t0, t1);
  }

  /** A recoverable failure on a splittable range runs the left half first:
      its failure is raised and the right half is never asked; otherwise the
      right half runs, its failure is raised, and with both halves
      successful the answer is the left half's rows followed by the right's. */
  lemma RecoverableFailureSplits<T>(q: Query<T>, t0: int, t1: int, depth: int)
    requires !q.BelowSpanFloor(Interval(t0, t1)) && depth <= q.maxDepth
    requires Recoverable(q.primary(Interval(t0, t1)))
    requires t1 - t0 >= 2
    ensures var mid := Midpoint(t0, t1);
      var left := Adaptive(q, t0, mid, depth + 1);
      var right := Adaptive(q, mid, t1, depth + 1);
      Adaptive(q, t0, t1, depth).rows ==
        if left.rows.Failure? then left.rows
        else if right.rows.Failure? then right.rows
        else Success(left.rows.value + right.rows.value)
    ensures var mid := Midpoint(t0, t1);
      var left := Adaptive(q, t0, mid, depth + 1);
      var right := Adaptive(q, mid, t1, depth + 1);
      Adaptive(q, t0, t1, depth).primaryCalls ==
        [Call(Interval(t0, t1), depth)] + left.primaryCalls + (if left.rows.Failure? then [] else right.primaryCalls)
  {
    MidpointInside(t0, t1);
  }

  /** One recoverable failure followed by two successful halves: three
      primary calls, and the halves' rows in order. */
  lemma SplitOnce<T>(q: Query<T>, t0: int, t1: int)
    requires q.maxDepth >= 1 && t1 - t0 >= 2
    requires !q.BelowSpanFloor(Interval(t0, t1))
    requires !q.BelowSpanFloor(Interval(t0, Midpoint(t0, t1))) && !q.BelowSpanFloor(Interval(Midpoint(t0, t1), t1))
    requires Recoverable(q.primary(Interval(t0, t1)))
    requires q.primary(Interval(t0, Midpoint(t0, t1))).Success? && q.primary(Interval(Midpoint(t0, t1), t1)).Success?
    ensures |Adaptive(q, t0, t1, 0).primaryCalls| == 3
    ensures Adaptive(q, t0, t1, 0).rows ==
      Success(q.primary(Interval(t0, Midpoint(t0, t1))).value + q.primary(Interval(Midpoint(t0, t1), t1)).value)
  {
    var mid := Midpoint(t0, t1);
    MidpointInside(t0, t1);
    PrimarySuccessPassesThrough(q, t0, mid, 1);
    PrimarySuccessPassesThrough(q, mid, t1, 1);
  }

  /** If no range's primary result is a permanent failure, the call succeeds. */
  lemma NoPermanentNoFailure<T>(q: Query<T>, t0: int, t1: int, depth: int)
    requires forall s :: q.primary(s).Failure? ==> !IsPermanentError(q.primary(s).error)
    ensures Adaptive(q, t0, t1, depth).rows.Success?
  {
  }

  /** The rows of leaves that all came from a fallback answering one marker. */
  lemma {:induction false} GatherMarkers<T>(q: Query<T>, leaves: seq<Leaf>, marker: T)
    requires q.fallback.Some? && forall s :: q.fallback.value(s) == [marker]
    requires forall l :: l in leaves ==> l.source == FromFallback
    ensures |q.Gather(leaves)| == |leaves|
    ensures forall x :: x in q.Gather(leaves) ==> x == marker
  {
    if |leaves| > 0 {
      assert leaves[0] in leaves;
      GatherMarkers(q, leaves[1..], marker);
    }
  }

  /** A primary that always fails recoverably, with a fallback that answers a
      single marker: the answer is non-empty and made of markers only. */
  lemma AlwaysFailingUsesFallback<T>(q: Query<T>, t0: int, t1: int, marker: T)
    requires forall s :: Recoverable(q.primary(s))
    requires q.fallback.Some? && forall s :: q.fallback.value(s) == [marker]
    ensures Adaptive(q, t0, t1, 0).rows.Success?
    ensures |Adaptive(q, t0, t1, 0).rows.value| > 0
    ensures forall x :: x in Adaptive(q, t0, t1, 0).rows.value ==> x == marker
  {
    var a := Adaptive(q, t0, t1, 0);
    assert forall l :: l in a.leaves ==> l.source == FromFallback by {
      forall l | l in a.leaves ensures l.source == FromFallback {
        assert q.Honest(l);
      }
    }
    GatherMarkers(q, a.leaves, marker);
  }
}

=== FILE: strings.dfy ===
/** Strings as Python compares and searches them: substring containment,
    lower-casing, code-point lexicographic order, and `sorted(set(...))`. */
module Strings {
  import opened Seqs

  function LowerChar(c: char): char
  {
    if 'A' <= c <= 'Z' then (c as int + 32) as char else c
  }

  /** `str.lower()` restricted to ASCII letters. */
  function Lower(s: string): (r: string)
    ensures |r| == |s|
    ensures forall i :: 0 <= i < |s| ==> r[i] == LowerChar(s[i])
  {
    seq(|s|, i requires 0 <= i < |s| => LowerChar(s[i]))
  }

  lemma LowerIdempotent(s: string)
    ensures Lower(Lower(s)) == Lower(s)
  {
  }

  /** `needle` occurs in `hay` starting at position `i`. */
  predicate OccursAt(hay: string, needle: string, i: int)
  {
    0 <= i && i + |needle| <= |hay| && hay[i..i + |needle|] == needle
  }

  /** Python's `needle in hay`. */
  function Contains(hay: string, needle: string): (r: bool)
    ensures r <==> exists i :: OccursAt(hay, needle, i)
    decreases |hay|
  {
    if |hay| < |needle| then
      assert forall i :: !OccursAt(hay, needle, i);
      false
    else if hay[..|needle|] == needle then
      assert OccursAt(hay, needle, 0);
      true
    else
      ContainsShift(hay, needle);
      Contains(hay[1..], needle)
  }

  lemma ContainsShift(hay: string, needle: string)
    requires |hay| >= |needle| && |hay| > 0 && hay[..|needle|] != needle
    ensures (exists i :: OccursAt(hay, needle, i)) <==> (exists i :: OccursAt(hay[1..], needle, i))
  {
    forall i | OccursAt(hay, needle, i) ensures OccursAt(hay[1..], needle, i - 1) {
      assert i != 0;
      assert hay[1..][i - 1..i - 1 + |needle|] == hay[i..i + |needle|];
    }
    forall i | OccursAt(hay[1..], needle, i) ensures OccursAt(hay, needle, i + 1) {
      assert hay[1..][i..i + |needle|] == hay[i + 1..i + 1 + |needle|];
    }
  }

  /** Python's `<` on `str`: lexicographic by code point, a proper prefix first. */
  predicate Less(a: string, b: string)
    decreases |a|
  {
    |b| > 0 && (|a| == 0 || a[0] < b[0] || (a[0] == b[0] && Less(a[1..], b[1..])))
  }

  lemma {:induction false} LessIrreflexive(a: string)
    ensures !Less(a, a)
    decreases |a|
  {
    if |a| > 0 { LessIrreflexive(a[1..]); }
  }

  lemma {:induction false} LessTransitive(a: string, b: string, c: string)
    requires Less(a, b) && Less(b, c)
    ensures Less(a, c)
    decreases |a|
  {
    if |a| > 0 && a[0] == b[0] && b[0] == c[0] {
      LessTransitive(a[1..], b[1..], c[1..]);
    }
  }

  lemma {:induction false} LessTotal(a: string, b: string)
    ensures a == b || Less(a, b) || Less(b, a)
    decreases |a|
  {
    if |a| > 0 && |b| > 0 && a[0] == b[0] {
      LessTotal(a[1..], b[1..]);
      if a[1..] == b[1..] {
        assert a == [a[0]] + a[1..] && b == [b[0]] + b[1..];
      }
    }
  }

  lemma LessAsymmetric(a: string, b: string)
    requires Less(a, b)
    ensures !Less(b, a)
  {
    if Less(b, a) {
      LessTransitive(a, b, a);
      LessIrreflexive(a);
    }
  }

  predicate StrictlyAscending(s: seq<string>)
  {
    forall i, j :: 0 <= i < j < |s| ==> Less(s[i], s[j])
  }

  lemma AscendingIsDistinct(s: seq<string>)
    requires StrictlyAscending(s)
    ensures Distinct(s)
  {
    forall i, j | 0 <= i < j < |s| ensures s[i] != s[j] {
      if s[i] == s[j] { LessIrreflexive(s[i]); }
    }
  }

  /** Puts `x` into its place in an ascending list, unless it is already there. */
  function InsertUnique(sorted: seq<string>, x: string): (r: seq<string>)
    requires StrictlyAscending(sorted)
    ensures StrictlyAscending(r)
    ensures Elems(r) == Elems(sorted) + {x}
  {
    if |sorted| == 0 then [x]
    else if x == sorted[0] then
      HeadInElems(sorted);
      sorted
    else if Less(x, sorted[0]) then
      PrependLeast(x, sorted);
      ElemsCons(x, sorted);
      [x] + sorted
    else
      LessTotal(x, sorted[0]);
      AscendingTail(sorted);
      var tail := InsertUnique(sorted[1..], x);
      KeepHead(sorted, x, tail);
      [sorted[0]] + tail
  }

  lemma AscendingTail(s: seq<string>)
    requires StrictlyAscending(s) && |s| > 0
    ensures StrictlyAscending(s[1..])
  {
  }

  /** A string below the head of an ascending list can go in front of it. */
  lemma PrependLeast(x: string, sorted: seq<string>)
    requires StrictlyAscending(sorted) && |sorted| > 0 && Less(x, sorted[0])
    ensures StrictlyAscending([x] + sorted)
  {
    var r := [x] + sorted;
    forall i, j | 0 <= i < j < |r| ensures Less(r[i], r[j]) {
      if i == 0 && j > 1 { LessTransitive(x, sorted[0], sorted[j - 1]); }
    }
  }

  /** The head stays in front when `x` goes into the tail after it. */
  lemma KeepHead(sorted: seq<string>, x: string, tail: seq<string>)
    requires StrictlyAscending(sorted) && |sorted| > 0 && Less(sorted[0], x)
    requires StrictlyAscending(tail) && Elems(tail) == Elems(sorted[1..]) + {x}
    ensures StrictlyAscending([sorted[0]] + tail)
    ensures Elems([sorted[0]] + tail) == Elems(sorted) + {x}
  {
    assert sorted == [sorted[0]] + sorted[1..];
    ElemsCons(sorted[0], sorted[1..]);
    ElemsCons(sorted[0], tail);
    HeadBelowTail(sorted, x, tail);
    ConsAscending(sorted[0], tail);
  }

  lemma HeadBelowTail(sorted: seq<string>, x: string, tail: seq<string>)
    requires StrictlyAscending(sorted) && |sorted| > 0 && Less(sorted[0], x)
    requires Elems(tail) == Elems(sorted[1..]) + {x}
    ensures forall k :: 0 <= k < |tail| ==> Less(sorted[0], tail[k])
  {
    forall k | 0 <= k < |tail| ensures Less(sorted[0], tail[k]) {
      assert tail[k] in Elems(tail);
      if tail[k] != x {
        var j :| 0 <= j < |sorted[1..]| && sorted[1..][j] == tail[k];
        assert sorted[j + 1] == tail[k];
      }
    }
  }

  lemma ConsAscending(h: string, tail: seq<string>)
    requires StrictlyAscending(tail)
    requires forall k :: 0 <= k < |tail| ==> Less(h, tail[k])
    ensures StrictlyAscending([h] + tail)
  {
    var r := [h] + tail;
    forall i, j | 0 <= i < j < |r| ensures Less(r[i], r[j]) {
      if i == 0 { assert r[j] == tail[j - 1]; }
      else { assert r[i] == tail[i - 1] && r[j] == tail[j - 1]; }
    }
  }

  /** Python's `sorted(set(names))`. */
  function SortedSet(names: seq<string>): (r: seq<string>)
    ensures StrictlyAscending(r)
    ensures Elems(r) == Elems(names)
  {
    if |names| == 0 then []
    else
      var prefix := names[..|names| - 1];
      assert names == prefix + [names[|names| - 1]];
      assert Elems(names) == Elems(prefix) + {names[|names| - 1]};
      InsertUnique(SortedSet(prefix), names[|names| - 1])
  }

  lemma HeadInElems(b: seq<string>)
    requires |b| > 0
    ensures b[0] in Elems(b)
  {
  }

  lemma HeadIsLeast(a: seq<string>, x: string)
    requires StrictlyAscending(a) && x in Elems(a)
    ensures x == a[0] || Less(a[0], x)
  {
    var i :| 0 <= i < |a| && a[i] == x;
  }

  /** Two ascending listings of the same set start with its least element. */
  lemma SameHead(a: seq<string>, b: seq<string>)
    requires StrictlyAscending(a) && StrictlyAscending(b)
    requires Elems(a) == Elems(b) && |a| > 0
    ensures |b| > 0 && a[0] == b[0]
  {
    HeadInElems(a);
    HeadIsLeast(b, a[0]);
    HeadInElems(b);
    HeadIsLeast(a, b[0]);
    if a[0] != b[0] {
      LessAsymmetric(a[0], b[0]);
    }
  }

  lemma SameTailElems(a: seq<string>, b: seq<string>)
    requires StrictlyAscending(a) && StrictlyAscending(b)
    requires Elems(a) == Elems(b) && |a| > 0 && |b| > 0 && a[0] == b[0]
    ensures Elems(a[1..]) == Elems(b[1..])
  {
    AscendingIsDistinct(a);
    AscendingIsDistinct(b);
    ElemsRemoveAt(a, 0);
    ElemsRemoveAt(b, 0);
    assert RemoveAt(a, 0) == a[1..] && RemoveAt(b, 0) == b[1..];
  }

  /** There is only one ascending, duplicate-free listing of a set of strings,
      so `sorted(set(...))` is determined by the set alone. */
  lemma {:induction false} AscendingListingUnique(a: seq<string>, b: seq<string>)
    requires StrictlyAscending(a) && StrictlyAscending(b)
    requires Elems(a) == Elems(b)
    ensures a == b
    decreases |a|
  {
    if |a| == 0 {
      if |b| > 0 { HeadInElems(b); assert false; }
    } else {
      SameHead(a, b);
      AscendingTail(a);
      AscendingTail(b);
      SameTailElems(a, b);
      AscendingListingUnique(a[1..], b[1..]);
      assert a == [a[0]] + a[1..] && b == [b[0]] + b[1..];
    }
  }
}

=== FILE: time_ranges.dfy ===
/** Instants and half-open time ranges. An instant is an integer count of
    microseconds, the resolution of Python's `datetime`. */
module TimeRanges {

  const Second: int := 1_000_000
  const Day: int := 86_400 * Second

  /** The half-open range [lo, hi). */
  datatype Interval = Interval(lo: int, hi: int) {
    function Width(): int { hi - lo }
  }

  /** `inner` lies inside [lo, hi]. */
  predicate Within(inner: Interval, lo: int, hi: int)
  {
    lo <= inner.lo && inner.hi <= hi
  }

  /** `spans` are consecutive, the first starting at `lo` and the last ending
      at `hi`: together they cover [lo, hi) with no gap and no overlap. */
  predicate Tiles(spans: seq<Interval>, lo: int, hi: int)
  {
    && |spans| > 0
    && spans[0].lo == lo
    && spans[|spans| - 1].hi == hi
    && forall i :: 0 <= i < |spans| - 1 ==> spans[i].hi == spans[i + 1].lo
  }

  lemma TilesAppend(a: seq<Interval>, b: seq<Interval>, lo: int, mid: int, hi: int)
    requires Tiles(a, lo, mid) && Tiles(b, mid, hi)
    ensures Tiles(a + b, lo, hi)
  {
    var s := a + b;
    forall i | 0 <= i < |s| - 1 ensures s[i].hi == s[i + 1].lo {
      if i < |a| - 1 {
        assert s[i] == a[i] && s[i + 1] == a[i + 1];
      } else if i == |a| - 1 {
        assert s[i] == a[i] && s[i + 1] == b[0];
      } else {
        assert s[i] == b[i - |a|] && s[i + 1] == b[i - |a| + 1];
      }
    }
  }

  /** Every span is non-empty. */
  predicate NonEmptySpans(spans: seq<Interval>)
  {
    forall i :: 0 <= i < |spans| ==> spans[i].lo < spans[i].hi
  }

  /** Tiles of positive width cover a non-empty range. */
  lemma {:induction false} TilesOrdered(spans: seq<Interval>, lo: int, hi: int)
    requires Tiles(spans, lo, hi) && NonEmptySpans(spans)
    ensures lo < hi
    decreases |spans|
  {
    if |spans| > 1 {
      TilesTail(spans, lo, hi);
      TilesOrdered(spans[1..], spans[1].lo, hi);
    }
  }

  /** Without its first tile, a tiling covers the rest of the range. */
  lemma TilesTail(spans: seq<Interval>, lo: int, hi: int)
    requires Tiles(spans, lo, hi) && NonEmptySpans(spans) && |spans| > 1
    ensures Tiles(spans[1..], spans[1].lo, hi) && NonEmptySpans(spans[1..])
    ensures spans[0] == Interval(lo, spans[1].lo)
  {
  }

  /** Python's `timedelta / 2` on a duration of `d` microseconds: the exact
      half, rounded half to even. Dafny's `/` and `%` by a positive divisor
      floor, as Python's `divmod` does. */
  function HalfToEven(d: int): int
  {
    var q := d / 2;
    if d % 2 == 1 && q % 2 == 1 then q + 1 else q
  }

  /** `t0 + (t1 - t0) / 2` as the splitters compute it. */
  function Midpoint(t0: int, t1: int): int
  {
    t0 + HalfToEven(t1 - t0)
  }

  /** The midpoint splits [t0, t1) into two non-empty halves exactly when the
      range is at least two microseconds wide. */
  lemma MidpointInside(t0: int, t1: int)
    ensures t0 < Midpoint(t0, t1) < t1 <==> t1 - t0 >= 2
  {
    var d := t1 - t0;
    var q := d / 2;
    assert d == 2 * q + d % 2;
  }

  /** The chunking loop: ranges of `width` starting at `cur`, each next one
      starting where the previous ended, the last one clipped to `end`; the
      loop also stops as soon as a step would not move forward. */
  function BuildChunks(cur: int, end: int, width: int): (chunks: seq<Interval>)
    ensures |chunks| == 0 <==> cur >= end || width <= 0
    ensures |chunks| > 0 ==> Tiles(chunks, cur, end)
    ensures forall i :: 0 <= i < |chunks| ==> 0 < chunks[i].Width() <= width
    ensures forall i :: 0 <= i < |chunks| - 1 ==> chunks[i].Width() == width
    decreases end - cur
  {
    if cur >= end then []
    else
      var nxt := if cur + width < end then cur + width else end;
      if nxt <= cur then []
      else [Interval(cur, nxt)] + BuildChunks(nxt, end, width)
  }

  /** The first chunk, then the chunks of the rest. */
  lemma BuildChunksStep(cur: int, end: int, width: int)
    requires cur < end && width > 0
    ensures var nxt := if cur + width < end then cur + width else end;
      BuildChunks(cur, end, width) == [Interval(cur, nxt)] + BuildChunks(nxt, end, width)
  {
  }

  /** There are ceil((end - cur) / width) chunks. */
  lemma {:induction false} BuildChunksCount(cur: int, end: int, width: int)
    requires cur < end && width > 0
    ensures |BuildChunks(cur, end, width)| == (end - cur + width - 1) / width
    decreases end - cur
  {
    if cur + width < end {
      BuildChunksCount(cur + width, end, width);
      assert (end - cur + width - 1) / width == (end - (cur + width) + width - 1) / width + 1 by {
        var x := end - (cur + width) + width - 1;
        assert end - cur + width - 1 == x + width;
        DivShift(x, width);
      }
    } else {
      assert 0 < end - cur <= width;
      assert width <= end - cur + width - 1 < 2 * width;
      DivOne(end - cur + width - 1, width);
    }
  }

  lemma DivShift(x: int, w: int)
    requires w > 0
    ensures (x + w) / w == x / w + 1
  {
    var q, r := x / w, x % w;
    assert x == w * q + r && 0 <= r < w;
    assert x + w == w * (q + 1) + r;
    DivUnique(x + w, w, q + 1, r);
  }

  lemma DivUnique(a: int, w: int, q: int, r: int)
    requires w > 0 && 0 <= r < w && a == w * q + r
    ensures a / w == q
  {
    var q', r' := a / w, a % w;
    assert a == w * q' + r';
    assert w * (q - q') == r' - r;
    if q > q' {
      MulAtLeast(w, q - q');
    } else if q < q' {
      MulAtLeast(w, q' - q);
    }
  }

  lemma MulAtLeast(w: int, k: int)
    requires w > 0 && k >= 1
    ensures w * k >= w
  {
    var j := k - 1;
    assert w * k == w * j + w;
    assert w * j >= 0;
  }

  lemma DivOne(x: int, w: int)
    requires w > 0 && w <= x < 2 * w
    ensures x / w == 1
  {
  }
}

=== FILE: windows.dfy ===
/** `_compress_bins`: sorting `(bucket start, count)` pairs and merging runs
    of exactly adjacent buckets into coverage windows. Instants are integer
    microseconds and `step` is the bucket width. */
module Windows {
  import opened Wrappers
  import opened Seqs
  import opened TimeRanges

  /** One non-empty bucket reported by the store. */
  datatype Bucket = Bucket(start: int, count: int)

  /** A merged run of buckets: `(cur_start, cur_end, bins_in, rows_in)`. */
  datatype Window = Window(start: int, end: int, bins: nat, rows: int)

  function BucketCount(b: Bucket): int { b.count }
  function WindowBins(w: Window): int { w.bins }
  function WindowRows(w: Window): int { w.rows }

  predicate SortedByStart(s: seq<Bucket>)
  {
    forall i, j :: 0 <= i < j < |s| ==> s[i].start <= s[j].start
  }

  /** The buckets of `s` that start at `t`, in their order in `s`. */
  function At(s: seq<Bucket>, t: int): seq<Bucket>
  {
    if |s| == 0 then []
    else (if s[0].start == t then [s[0]] else []) + At(s[1..], t)
  }

  lemma {:induction false} AtAppend(a: seq<Bucket>, b: seq<Bucket>, t: int)
    ensures At(a + b, t) == At(a, t) + At(b, t)
  {
    if |a| == 0 {
      assert a + b == b;
    } else {
      var ab := a + b;
      assert ab[0] == a[0] && ab[1..] == a[1..] + b;
      AtAppend(a[1..], b, t);
      var h := if a[0].start == t then [a[0]] else [];
      assert h + (At(a[1..], t) + At(b, t)) == (h + At(a[1..], t)) + At(b, t);
    }
  }

  lemma {:induction false} AtNone(s: seq<Bucket>, t: int)
    requires forall k :: 0 <= k < |s| ==> s[k].start != t
    ensures At(s, t) == []
  {
    if |s| > 0 {
      AtNone(s[1..], t);
    }
  }

  /** Inserts `b` into sorted `s` after every bucket whose start is not
      later than its own, as a stable sort does. */
  function InsertBucket(s: seq<Bucket>, b: Bucket): seq<Bucket>
  {
    if |s| == 0 || b.start < s[0].start then [b] + s
    else [s[0]] + InsertBucket(s[1..], b)
  }

  /** A bucket no later than the head of a sorted list can go in front of it. */
  lemma ConsSorted(x: Bucket, s: seq<Bucket>)
    requires SortedByStart(s) && (|s| == 0 || x.start <= s[0].start)
    ensures SortedByStart([x] + s)
  {
    var r := [x] + s;
    forall i, j | 0 <= i < j < |r| ensures r[i].start <= r[j].start {
      if i == 0 { assert r[j] == s[j - 1]; }
      else { assert r[i] == s[i - 1] && r[j] == s[j - 1]; }
    }
  }

  /** Insertion keeps the list sorted and adds exactly `b`; the head stays
      unless `b` goes in front of it. */
  lemma {:induction false} InsertBucketSorted(s: seq<Bucket>, b: Bucket)
    requires SortedByStart(s)
    ensures var r := InsertBucket(s, b);
      && SortedByStart(r)
      && multiset(r) == multiset(s) + multiset{b}
      && |r| == |s| + 1
      && (|s| > 0 && s[0].start <= b.start ==> r[0] == s[0])
      && ((|s| == 0 || b.start < s[0].start) ==> r[0] == b)
  {
    if |s| == 0 || b.start < s[0].start {
      ConsSorted(b, s);
    } else {
      SortedTail(s);
      InsertBucketSorted(s[1..], b);
      var rest := InsertBucket(s[1..], b);
      assert s[0].start <= rest[0].start;
      ConsSorted(s[0], rest);
      assert s == [s[0]] + s[1..];
    }
  }

  lemma SortedTail(s: seq<Bucket>)
    requires SortedByStart(s) && |s| > 0
    ensures SortedByStart(s[1..])
  {
  }

  lemma InsertBucketAtFront(s: seq<Bucket>, b: Bucket, t: int)
    requires SortedByStart(s) && (|s| == 0 || b.start < s[0].start)
    ensures At([b] + s, t) == At(s, t) + At([b], t)
  {
    AtAppend([b], s, t);
    if b.start == t {
      AtNone(s, t);
    } else {
      assert At([b], t) == [];
    }
  }

  /** Inserting after the equal-start buckets keeps their relative order. */
  lemma {:induction false} InsertBucketAt(s: seq<Bucket>, b: Bucket, t: int)
    requires SortedByStart(s)
    ensures At(InsertBucket(s, b), t) == At(s, t) + At([b], t)
  {
    if |s| == 0 || b.start < s[0].start {
      InsertBucketAtFront(s, b, t);
    } else {
      SortedTail(s);
      var r := InsertBucket(s[1..], b);
      assert InsertBucket(s, b) == [s[0]] + r;
      InsertBucketAt(s[1..], b, t);
      AtAppend([s[0]], r, t);
      AtAppend([s[0]], s[1..], t);
      assert s == [s[0]] + s[1..];
      var h := At([s[0]], t);
      assert h + (At(s[1..], t) + At([b], t)) == (h + At(s[1..], t)) + At([b], t);
    }
  }

  /** Sorting an already sorted list changes nothing. */
  lemma {:induction false} InsertAtEnd(s: seq<Bucket>, b: Bucket)
    requires SortedByStart(s)
    requires forall k :: 0 <= k < |s| ==> s[k].start <= b.start
    ensures InsertBucket(s, b) == s + [b]
  {
    if |s| > 0 {
      InsertAtEnd(s[1..], b);
      assert s == [s[0]] + s[1..];
    }
  }

  /** `sorted(pairs, key=lambda row: row[0])`: Python's sort is stable. */
  function SortByStart(pairs: seq<Bucket>): (r: seq<Bucket>)
    ensures SortedByStart(r)
    ensures multiset(r) == multiset(pairs)
    ensures |r| == |pairs|
  {
    if |pairs| == 0 then []
    else
      var m := |pairs| - 1;
      assert pairs == pairs[..m] + [pairs[m]];
      InsertBucketSorted(SortByStart(pairs[..m]), pairs[m]);
      InsertBucket(SortByStart(pairs[..m]), pairs[m])
  }

  /** The sort is stable: buckets with the same start keep their input order. */
  lemma {:induction false} SortByStartStable(pairs: seq<Bucket>, t: int)
    ensures At(SortByStart(pairs), t) == At(pairs, t)
  {
    if |pairs| > 0 {
      var m := |pairs| - 1;
      assert pairs == pairs[..m] + [pairs[m]];
      SortByStartStable(pairs[..m], t);
      InsertBucketAt(SortByStart(pairs[..m]), pairs[m], t);
      AtAppend(pairs[..m], [pairs[m]], t);
    }
  }

  /** Sorting an already sorted list changes nothing. */
  lemma {:induction false} SortSorted(ps: seq<Bucket>)
    requires SortedByStart(ps)
    ensures SortByStart(ps) == ps
  {
    if |ps| > 0 {
      var m := |ps| - 1;
      assert ps == ps[..m] + [ps[m]];
      SortSorted(ps[..m]);
      InsertAtEnd(ps[..m], ps[m]);
    }
  }

  /** The window opened at bucket `b`. */
  function Open(b: Bucket, step: int): Window
  {
    Window(b.start, b.start + step, 1, b.count)
  }

  /** The walk over the sorted pairs with `open` the current window
      (`cur_start is None` when it is `None`). An exactly adjacent bucket
      extends the open window; any other bucket, including one with the
      same start as the last, closes it and opens a new one. */
  function Walk(ps: seq<Bucket>, step: int, open: Option<Window>): (r: seq<Window>)
    ensures |r| == 0 <==> open.None? && |ps| == 0
    ensures open.Some? && |r| > 0 ==> r[0].start == open.value.start
    ensures open.None? && |ps| > 0 ==> r[0].start == ps[0].start
  {
    if |ps| == 0 then
      if open.Some? then [open.value] else []
    else
      var b := ps[0];
      match open
      case None => Walk(ps[1..], step, Some(Open(b, step)))
      case Some(w) =>
        if b.start == w.end then
          Walk(ps[1..], step, Some(Window(w.start, w.end + step, w.bins + 1, w.rows + b.count)))
        else
          [w] + Walk(ps[1..], step, Some(Open(b, step)))
  }

  /** `_compress_bins(pairs, step)`. */
  function CompressBins(pairs: seq<Bucket>, step: int): (r: seq<Window>)
    ensures |r| == 0 <==> |pairs| == 0
  {
    Walk(SortByStart(pairs), step, None)
  }

  // ---------------------------------------------------------------------
  // Window shape and totals

  predicate WellFormed(w: Window, step: int)
  {
    w.bins >= 1 && w.end == w.start + w.bins * step
  }

  lemma {:induction false} WalkWellFormed(ps: seq<Bucket>, step: int, open: Option<Window>)
    requires open.Some? ==> WellFormed(open.value, step)
    ensures forall k :: 0 <= k < |Walk(ps, step, open)| ==> WellFormed(Walk(ps, step, open)[k], step)
  {
    if |ps| > 0 {
      var b := ps[0];
      match open
      case None =>
        WalkWellFormed(ps[1..], step, Some(Open(b, step)));
      case Some(w) =>
        if b.start == w.end {
          var w' := Window(w.start, w.end + step, w.bins + 1, w.rows + b.count);
          assert w'.end == w.start + w.bins * step + step == w.start + (w.bins + 1) * step;
          WalkWellFormed(ps[1..], step, Some(w'));
        } else {
          WalkWellFormed(ps[1..], step, Some(Open(b, step)));
        }
    }
  }

  /** Every window holds at least one bucket and spans exactly `bins` steps. */
  lemma CompressWellFormed(pairs: seq<Bucket>, step: int)
    ensures forall k :: 0 <= k < |CompressBins(pairs, step)| ==> WellFormed(CompressBins(pairs, step)[k], step)
  {
    WalkWellFormed(SortByStart(pairs), step, None);
  }

  function OpenBins(open: Option<Window>): int
  {
    if open.Some? then open.value.bins else 0
  }

  function OpenRows(open: Option<Window>): int
  {
    if open.Some? then open.value.rows else 0
  }

  lemma {:induction false} WalkTotals(ps: seq<Bucket>, step: int, open: Option<Window>)
    ensures Sum(WindowBins, Walk(ps, step, open)) == |ps| + OpenBins(open)
    ensures Sum(WindowRows, Walk(ps, step, open)) == Sum(BucketCount, ps) + OpenRows(open)
  {
    if |ps| == 0 {
      if open.Some? {
        assert Sum(WindowBins, [open.value]) == open.value.bins;
        assert Sum(WindowRows, [open.value]) == open.value.rows;
      }
    } else {
      var b := ps[0];
      match open
      case None =>
        WalkTotals(ps[1..], step, Some(Open(b, step)));
      case Some(w) =>
        if b.start == w.end {
          WalkTotals(ps[1..], step, Some(Window(w.start, w.end + step, w.bins + 1, w.rows + b.count)));
        } else {
          var rest := Walk(ps[1..], step, Some(Open(b, step)));
          WalkTotals(ps[1..], step, Some(Open(b, step)));
          assert ([w] + rest)[1..] == rest;
        }
    }
  }

  /** No bucket is lost or counted twice: the windows hold as many buckets as
      there were pairs, and as many rows as the pairs counted. */
  lemma CompressTotals(pairs: seq<Bucket>, step: int)
    ensures Sum(WindowBins, CompressBins(pairs, step)) == |pairs|
    ensures Sum(WindowRows, CompressBins(pairs, step)) == Sum(BucketCount, pairs)
  {
    WalkTotals(SortByStart(pairs), step, None);
    SumPermutation(BucketCount, SortByStart(pairs), pairs);
  }

  // ---------------------------------------------------------------------
  // Ordering

  predicate StartsNonDecreasing(ws: seq<Window>)
  {
    forall i, j :: 0 <= i < j < |ws| ==> ws[i].start <= ws[j].start
  }

  lemma {:induction false} WalkOrdered(ps: seq<Bucket>, step: int, open: Option<Window>, lb: int)
    requires SortedByStart(ps)
    requires forall k :: 0 <= k < |ps| ==> lb <= ps[k].start
    requires open.Some? ==> lb <= open.value.start && forall k :: 0 <= k < |ps| ==> open.value.start <= ps[k].start
    ensures forall k :: 0 <= k < |Walk(ps, step, open)| ==> lb <= Walk(ps, step, open)[k].start
    ensures StartsNonDecreasing(Walk(ps, step, open))
  {
    if |ps| > 0 {
      var b := ps[0];
      match open
      case None =>
        WalkOrdered(ps[1..], step, Some(Open(b, step)), lb);
      case Some(w) =>
        if b.start == w.end {
          WalkOrdered(ps[1..], step, Some(Window(w.start, w.end + step, w.bins + 1, w.rows + b.count)), lb);
        } else {
          var rest := Walk(ps[1..], step, Some(Open(b, step)));
          WalkOrdered(ps[1..], step, Some(Open(b, step)), b.start);
          assert forall k :: 0 < k < |[w] + rest| ==> ([w] + rest)[k] == rest[k - 1];
        }
    }
  }

  /** Window starts never decrease. */
  lemma CompressOrdered(pairs: seq<Bucket>, step: int)
    ensures StartsNonDecreasing(CompressBins(pairs, step))
  {
    var ps := SortByStart(pairs);
    if |ps| > 0 {
      WalkOrdered(ps, step, None, ps[0].start);
    }
  }

  /** On a grid of width `step > 0`, a value above `y - step` with the same
      residue as `y` is either `y` or at least a full step above it. */
  lemma GridStep(x: int, y: int, step: int)
    requires step > 0 && x % step == y % step && y - step < x && x != y
    ensures x >= y + step
  {
    var d := x / step - y / step;
    assert x - y == step * d;
    if d >= 1 {
      assert step * d >= step;
    }
  }

  /** Starts strictly increase: sorted and no start repeated. */
  predicate StrictlyIncreasing(s: seq<Bucket>)
  {
    forall i, j :: 0 <= i < j < |s| ==> s[i].start < s[j].start
  }

  /** Every start lies on the grid `g + k*step`. */
  predicate OnGrid(s: seq<Bucket>, step: int, g: int)
    requires step > 0
  {
    forall k :: 0 <= k < |s| ==> s[k].start % step == g % step
  }

  /** Consecutive windows are separated by at least one empty bucket. */
  predicate Separated(ws: seq<Window>)
  {
    forall k :: 0 <= k < |ws| - 1 ==> ws[k].end < ws[k + 1].start
  }

  lemma SeparatedCons(w: Window, rest: seq<Window>)
    requires Separated(rest)
    requires |rest| > 0 ==> w.end < rest[0].start
    ensures Separated([w] + rest)
  {
    assert forall k :: 0 < k < |[w] + rest| ==> ([w] + rest)[k] == rest[k - 1];
  }

  lemma ModStep(x: int, step: int)
    requires step > 0
    ensures (x + step) % step == x % step
  {
    DivShift(x, step);
    assert x == step * (x / step) + x % step;
    assert x + step == step * ((x + step) / step) + (x + step) % step;
  }

  lemma {:induction false} WalkSeparated(ps: seq<Bucket>, step: int, open: Option<Window>, g: int)
    requires step > 0 && StrictlyIncreasing(ps) && OnGrid(ps, step, g)
    requires open.Some? ==> open.value.end % step == g % step
    requires open.Some? ==> forall k :: 0 <= k < |ps| ==> open.value.end - step < ps[k].start
    ensures Separated(Walk(ps, step, open))
  {
    if |ps| > 0 {
      var b := ps[0];
      var tail := ps[1..];
      assert OnGrid(tail, step, g);
      assert forall k :: 0 <= k < |tail| ==> b.start < tail[k].start;
      if open.None? {
        ModStep(b.start, step);
        WalkSeparated(tail, step, Some(Open(b, step)), g);
      } else {
        var w := open.value;
        if b.start == w.end {
          ModStep(w.end, step);
          WalkSeparated(tail, step, Some(Window(w.start, w.end + step, w.bins + 1, w.rows + b.count)), g);
        } else {
          ModStep(b.start, step);
          WalkSeparated(tail, step, Some(Open(b, step)), g);
          GridStep(b.start, w.end, step);
          SeparatedCons(w, Walk(tail, step, Some(Open(b, step))));
        }
      }
    }
  }

  /** Sorting a list whose starts are all different gives strictly increasing starts. */
  lemma SortedDistinctStrict(ps: seq<Bucket>, pairs: seq<Bucket>)
    requires SortedByStart(ps) && multiset(ps) == multiset(pairs)
    requires forall i, j :: 0 <= i < j < |pairs| ==> pairs[i].start != pairs[j].start
    ensures StrictlyIncreasing(ps)
  {
    forall i, j | 0 <= i < j < |ps| ensures ps[i].start < ps[j].start {
      DistinctStartsPermutation(ps, pairs, i, j);
    }
  }

  /** Taking the element at `i` out of both lists leaves the one at `j` in the rest. */
  lemma RestHoldsSecond(ps: seq<Bucket>, pairs: seq<Bucket>, i: int, j: int, a: nat)
    requires multiset(ps) == multiset(pairs)
    requires 0 <= i < j < |ps| && a < |pairs| && pairs[a] == ps[i]
    ensures ps[j] in multiset(RemoveAt(pairs, a))
  {
    var rest := RemoveAt(ps, i);
    assert rest[j - 1] == ps[j];
    assert ps[j] in multiset(rest);
    MultisetRemoveAt(ps, i);
    MultisetRemoveAt(pairs, a);
    assert multiset(rest) == multiset(RemoveAt(pairs, a));
  }

  /** Two positions of a permutation of `pairs` come from two positions of `pairs`. */
  lemma TwoPositions(ps: seq<Bucket>, pairs: seq<Bucket>, i: int, j: int) returns (a: nat, c: nat)
    requires multiset(ps) == multiset(pairs)
    requires 0 <= i < j < |ps|
    ensures a < |pairs| && c < |pairs| && a != c
    ensures pairs[a] == ps[i] && pairs[c] == ps[j]
  {
    assert ps[i] in multiset(ps);
    a := PositionIn(pairs, ps[i]);
    var rest := RemoveAt(pairs, a);
    RestHoldsSecond(ps, pairs, i, j, a);
    var b := PositionIn(rest, ps[j]);
    assert rest[b] == pairs[if b < a then b else b + 1];
    c := if b < a then b else b + 1;
  }

  /** A permutation of a list with distinct starts has distinct starts. */
  lemma DistinctStartsPermutation(ps: seq<Bucket>, pairs: seq<Bucket>, i: int, j: int)
    requires multiset(ps) == multiset(pairs)
    requires forall a, b :: 0 <= a < b < |pairs| ==> pairs[a].start != pairs[b].start
    requires 0 <= i < j < |ps|
    ensures ps[i].start != ps[j].start
  {
    var a, c := TwoPositions(ps, pairs, i, j);
    if a < c {
      assert pairs[a].start != pairs[c].start;
    } else {
      assert pairs[c].start != pairs[a].start;
    }
  }

  /** With distinct starts on a common grid of width `step > 0`, every
      window ends strictly before the next one starts: no two windows are
      adjacent. */
  lemma CompressSeparated(pairs: seq<Bucket>, step: int, g: int)
    requires step > 0 && OnGrid(pairs, step, g)
    requires forall i, j :: 0 <= i < j < |pairs| ==> pairs[i].start != pairs[j].start
    ensures Separated(CompressBins(pairs, step))
  {
    var ps := SortByStart(pairs);
    SortedDistinctStrict(ps, pairs);
    forall k | 0 <= k < |ps| ensures ps[k].start % step == g % step {
      assert ps[k] in multiset(pairs);
    }
    WalkSeparated(ps, step, None, g);
  }

  // ---------------------------------------------------------------------
  // Examples

  /** Two pairs with the same start are not merged for a non-zero step:
      the second closes the first one's window and opens another over the
      same span. With a zero step the start equals the open window's end,
      so the two merge. */
  lemma DuplicateStartNotMerged(t: int, a: int, b: int, step: int)
    ensures step != 0 ==> CompressBins([Bucket(t, a), Bucket(t, b)], step) == [Window(t, t + step, 1, a), Window(t, t + step, 1, b)]
    ensures step == 0 ==> CompressBins([Bucket(t, a), Bucket(t, b)], step) == [Window(t, t, 2, a + b)]
  {
    var pairs := [Bucket(t, a), Bucket(t, b)];
    assert pairs[..1] == [Bucket(t, a)];
    assert SortByStart([Bucket(t, a)]) == [Bucket(t, a)];
    assert SortByStart(pairs) == pairs;
    if step != 0 {
      var w1 := Window(t, t + step, 1, b);
      assert Walk(pairs[2..], step, Some(w1)) == [w1];
      assert Walk(pairs[1..], step, Some(Window(t, t + step, 1, a))) == [Window(t, t + step, 1, a), w1];
      assert Walk(pairs, step, None) == [Window(t, t + step, 1, a), w1];
    } else {
      var w := Window(t, t, 2, a + b);
      assert Walk(pairs[2..], step, Some(w)) == [w];
      assert Walk(pairs[1..], step, Some(Window(t, t, 1, a))) == [w];
      assert Walk(pairs, step, None) == [w];
    }
  }

  /** The walk over the sorted minute buckets of the example below. */
  lemma MinuteWalk(t: int, pairs: seq<Bucket>)
    requires pairs == [Bucket(t, 1), Bucket(t + 60_000_000, 1), Bucket(t + 120_000_000, 1), Bucket(t + 600_000_000, 1)]
    ensures Walk(pairs, 60_000_000, None) == [Window(t, t + 180_000_000, 3, 3), Window(t + 600_000_000, t + 660_000_000, 1, 1)]
  {
    var step := 60_000_000;
    var w0 := Window(t, t + 180_000_000, 3, 3);
    var w1 := Window(t + 600_000_000, t + 660_000_000, 1, 1);
    assert Walk(pairs[4..], step, Some(w1)) == [w1];
    assert Walk(pairs[3..], step, Some(w0)) == [w0, w1];
    assert Walk(pairs[2..], step, Some(Window(t, t + 120_000_000, 2, 2))) == [w0, w1];
    assert Walk(pairs[1..], step, Some(Window(t, t + 60_000_000, 1, 1))) == [w0, w1];
  }

  /** Buckets at minutes `t, t+1, t+2` and `t+10` give two windows:
      three buckets and three rows from `t`, then one from `t+10`. */
  lemma MinuteExample(t: int, pairs: seq<Bucket>)
    requires pairs == [Bucket(t, 1), Bucket(t + 60_000_000, 1), Bucket(t + 120_000_000, 1), Bucket(t + 600_000_000, 1)]
    ensures CompressBins(pairs, 60_000_000) == [Window(t, t + 180_000_000, 3, 3), Window(t + 600_000_000, t + 660_000_000, 1, 1)]
  {
    SortSorted(pairs);
    MinuteWalk(t, pairs);
  }
}

=== FILE: wrappers.dfy ===
/** Failure-carrying datatypes: `Option` for Python's optional arguments and
    `None` values, `Result` for a call that either returns or raises. */
module Wrappers {

  datatype Option<+T> = None | Some(value: T)

  /** `Failure(e)` stands for a raised exception carrying `e`. */
  datatype Result<+R, +E> = Success(value: R) | Failure(error: E)
}
